=== FILE: README.md ===
# search: filter compiler, ordered-map JSON encoder and bulk body, in Dafny

This project models the pure core of the Go package `search` (mailstepcz/search).
It has three parts:

- **The filter-expression compiler** (`expr.go`). An `Expr` is one of `Eq`,
  `Match`, `Wildcard`, `Interval` or `And`. `Map(flavour)` compiles it to
  one of two dialects:
  - DocDB: a document-store filter with implicit equality and the
    `$gt/$gte/$lt/$lte` operators;
  - OpenSearch: query DSL with `term/match/wildcard/range` clauses.

  The result is either a single ordered `Map` or a list of maps. `Idents`
  collects the field names. Modules: `Expressions` (the compiler),
  `ExprProps` (per-node properties) and `AndProps` (conjunctions,
  acceptance and errors). `Split` models `strings.Split` and the
  wildcard tokens.
- **The insertion-ordered `Map` and its hand-written JSON encoder**
  (`map.go`).
  - `Values`: the closed set of value kinds and `Map`.
  - `Decimal`: `strconv.AppendInt`.
  - `GoQuote`: `strconv.AppendQuote` on ASCII.
  - `Render`: the texts `appendValue`, `KVPair.appendJSON` and
    `Map.appendJSON` append, plus methods that mirror the Go loops.
  - `JsonParse` and `Wellformed`: a small strict JSON (RFC 8259) parser,
    and the proof that the encoder's output parses back to the value it came
    from.
- **The body of an OpenSearch bulk request** (`buildBulkBody` in `bulk.go`),
  in module `Bulk`. It holds:
  - one newline-terminated metadata record per operation;
  - a document record after it for non-delete operations that carry a
    document;
  - a stop at the first document that fails to encode.

  The four `BulkOperationType` constants are `Bulk.OpCreate`, `OpDelete`,
  `OpIndex` and `OpUpdate`. Go's JSON encoding is passed in as two
  functions: `str` for strings and `enc` for documents, and `enc` may fail.

`Scenarios` restates the package's unit tests over the model.

Two points of the compiler worth knowing up front:
- DocDB `Match` and `Wildcard` return the bare `errors.ErrUnsupported`
  (expr.go:79, 104), with no identifier or flavour attached
  (`Expressions.Unsupported`).
- OpenSearch `Wildcard` always returns a list, even for a single token
  (expr.go:101-121).

## Model

| member | source | states |
|---|---|---|
| Expressions.FlavourName | expr.go:20-29 | The name is "DocDB" exactly for DocDB and "OpenSearch" exactly for OpenSearch; the closed type leaves the "unknown flavour" case out. |
| Expressions.Pair | expr.go:52-54 | A one-pair map `{k: v}` has exactly the key list `[k]`, and `k` looks up `v`. |
| ExprProps.EqCompiles | expr.go:49-59 | `Eq` never fails. It compiles to a single map rendered `{ident:value}` under DocDB and `{"term":{ident:value}}` under OpenSearch. |
| ExprProps.MatchCompiles | expr.go:76-84 | `Match` is `Unsupported` under DocDB. Under OpenSearch it is a single map rendered `{"match":{ident:text}}`. |
| ExprProps.WildcardClausesAreTokens | expr.go:106-119 | The loop over the split parts yields exactly one clause per non-empty part, in order. |
| ExprProps.WildcardCompiles | expr.go:101-121 | `Wildcard` is `Unsupported` under DocDB. Under OpenSearch it is always a list, with one clause per space-separated token, whose i-th clause is the clause of the i-th token. |
| ExprProps.WildcardClauseText | expr.go:112-118 | A clause renders as `{"wildcard":{ident:{"value":"*tok*","case_insensitive":true}}}`. |
| ExprProps.WildcardNoTokens | expr.go:106-111 | The list is empty if and only if the text is empty or all spaces. |
| ExprProps.WildcardConcat | expr.go:106-111 | The clauses for `a + " " + b` are those of `a` followed by those of `b`, so runs of spaces add no clause. |
| ExprProps.OpsDistinct | expr.go:145-177 | Lower and upper operators never coincide, and the inclusive flag alone decides which lower (or upper) operator is used. |
| ExprProps.DollarPrefix | expr.go:145-177 | Each DocDB operator is the OpenSearch operator with a `$` prefix. |
| ExprProps.IntervalConds | expr.go:145-177 | The condition list holds one pair per present bound, at most two. The lower bound comes first with its operator and the upper bound last with its operator. |
| ExprProps.IntervalLookup | expr.go:145-177 | Read as a map, the conditions give a bound under an operator key exactly when that bound is present and its inclusive flag selects that operator; otherwise nothing. |
| ExprProps.IntervalShape | expr.go:142-180 | `Interval` never fails and gives a single map. Under DocDB its only key is the field name, which looks up the object of conditions. Under OpenSearch its only key is `range`, which looks up an object whose only key is the field name, which in turn looks up the conditions. |
| ExprProps.IntervalCompiles | expr.go:142-180 | The rendered texts of both wrappings, with the conditions rendered in place. |
| ExprProps.QuotePlain | map.go:23 | Printable ASCII text without `"` or `\` is quoted verbatim between double quotes. |
| AndProps.IdentsAppend | expr.go:191-197 | The idents of a conjunction of `a + b` are those of `a` followed by those of `b`. |
| AndProps.DocDBCompiles | expr.go:200-215 | Under DocDB, compilation succeeds if and only if no `Match` or `Wildcard` occurs (an independent definition). A success is always one map whose keys are `Idents(e)` in order. The only error is `Unsupported`, so the "expected map" branch is unreachable. |
| AndProps.AndDocDBCompiles | expr.go:203-215 | The same for the child list of a DocDB conjunction: it succeeds exactly when every child is supported, and its keys are the children's idents concatenated. |
| AndProps.OpenSearchCompiles | expr.go:216-233 | Under OpenSearch compilation never fails. The number of clauses an expression adds to an enclosing list equals an independent clause count. |
| AndProps.AndOpenSearchCompiles | expr.go:217-233 | An OpenSearch conjunction's list has the summed length of its children's contributions. |
| AndProps.AndDocDBAppend | expr.go:203-215 | Splitting a DocDB conjunction's children anywhere gives the first error, or else the concatenation of the two maps. |
| AndProps.AndOpenSearchAppend | expr.go:217-233 | Splitting an OpenSearch conjunction's children anywhere gives the first error, or else the concatenation of the two lists. |
| AndProps.AndNested | expr.go:200-236 | Under either dialect, a conjunction nested as the first child flattens into the outer one. |
| AndProps.AndSingleDocDB | expr.go:203-215 | A one-child DocDB conjunction compiles to what the child compiles to. |
| AndProps.AndSingleOpenSearch | expr.go:224-228 | A one-child OpenSearch conjunction is a list. A child map becomes a one-element list, and a child list is kept as it is. |
| AndProps.AndDocDBFirstError | expr.go:204-208 | The first unsupported child decides the DocDB result, whatever follows it. |
| Values.Keys | map.go:71-73 | Keys are listed in insertion order, duplicates included. |
| Values.Concat | expr.go:210 | Appending pairs keeps those of `a`, then those of `b`, at shifted positions. |
| Values.KeysConcat | expr.go:210 | The keys of the appended map are the keys of `a` followed by those of `b`. |
| Split.Split | expr.go:106 | There is at least one part, and no part contains the separator. |
| Split.SplitJoin | expr.go:106 | Joining the parts with the separator gives the text back. |
| Split.JoinSplit | expr.go:106 | Splitting the join of separator-free parts gives the parts back. |
| Split.SplitConcat | expr.go:106 | Splitting around one separator splits each side independently. |
| Split.NonEmpty | expr.go:108-111 | The kept parts are non-empty, come from the input, and are no more than the input; every non-empty input part is kept. |
| Split.TokensConcat | expr.go:106-111 | The tokens of `a + " " + b` are the tokens of `a` then those of `b`. |
| Split.TokensOfWord | expr.go:106-111 | A non-empty word without spaces is exactly one token. |
| Split.TokensEmpty | expr.go:106-111 | A text has no tokens exactly when it consists of spaces only. |
| Decimal.NatText | map.go:32-33 | A natural number renders as canonical base-10 digits, with no leading zero. |
| Decimal.IntText | map.go:32-33 | A leading `-` appears exactly for negative numbers, followed by canonical digits. |
| Decimal.NatTextRoundTrip | map.go:32-33 | The digits read back as the number. |
| Decimal.DigitsRoundTrip | map.go:32-33 | A canonical digit string is the text of the number it denotes. |
| Decimal.IntTextInjective | map.go:32-33 | Distinct integers render differently. |
| GoQuote.EscapeChar | map.go:23 | A character's escape either starts with a backslash or is the character itself. The second case happens only for characters that are not `"` and not `\`, whose code point is at least U+0020 and that are not DEL. |
| GoQuote.Quote | map.go:38-43 | A quoted string starts and ends with `"`. |
| Render.AppendValue | map.go:28-65 | The buffer is an untouched prefix, followed by exactly the value's text. |
| Render.AppendStrings | map.go:44-52 | The `[]string` loop writes the quoted elements separated by commas. |
| Render.AppendItems | map.go:53-61 | The `[]any` loop writes each element's own text, separated by commas. |
| Render.AppendPair | map.go:22-26 | A pair appends its quoted key, `:` and the value's text after the buffer. |
| Render.AppendMap | map.go:75-84 | A map appends `{`, its pairs in insertion order separated by commas, and `}` after the buffer. |
| Render.Json | map.go:93-97 | `JSON()` is the map's text. |
| Render.MarshalJson | map.go:86-89 | `MarshalJSON` returns that same text and never fails. |
| Render.PairTexts | map.go:77-82 | The i-th rendered pair is the text of the i-th pair. |
| Render.JoinedSnoc | map.go:77-82 | Each further loop iteration appends a comma and the next part. |
| Render.JoinedAppend | map.go:77-82 | Joining two non-empty lists puts exactly one comma between their texts. |
| Render.EmptyTexts | map.go:44-61 | Empty slices render as `[]`, and the empty map as `{}`. |
| Render.StringsRedispatch | map.go:44-52 | A `[]string` renders as the `[]any` of its elements as strings, since each element goes back through `appendValue`. |
| Render.MapTextConcat | map.go:68-84 | The text of two non-empty appended maps is the text of the first, a comma, and the text of the second, with the inner braces removed. Duplicate keys are kept. |
| Wellformed.EscapeInverse | map.go:23 | For a JSON-safe character, the model's escape (Go's, for ASCII) is either the character itself or a two-character JSON escape that decodes back to it. |
| Wellformed.ParseQuote | map.go:38-43 | A quoted JSON-safe string parses back to itself, and the parser stops after the closing quote. |
| Wellformed.ControlCharQuoteRejected | map.go:38-39 | Go quotes U+0001 as `"\x01"`, which the JSON parser rejects. |
| Wellformed.SupplementaryQuoteRejected | map.go:38-39 | U+F0000 is not JSON-safe, and the text `"\U000f0000"` that Go writes for it is rejected by the JSON parser. |
| Wellformed.ParseBoolText | map.go:30-31 | `true` and `false` parse back to the boolean. |
| Wellformed.ParseIntText | map.go:32-33 | An integer's text parses back to the integer whenever no digit follows it. |
| Wellformed.ParseValueText | map.go:28-65 | Every safe value's text parses back to the value's JSON reading. It leaves the rest of the input untouched whenever that rest does not start with a digit. |
| Wellformed.ParseMapText | map.go:75-84 | A safe map's text parses as an object whose members are the pairs in order, duplicates kept. |
| Wellformed.JsonRoundTrip | map_test.go:31-37 | The encoder's output for a safe map (strings without DEL, without characters above U+FFFF and without control characters other than `\b \f \n \r \t`) is one complete JSON document. It decodes to an object with one member per pair, keyed in insertion order. |
| Wellformed.ValueRoundTrip | map.go:28-65 | The text of any safe value (same character restriction) is a complete JSON document that decodes to that value's reading. |
| Bulk.OpRecords | bulk.go:104-117 | An operation fails exactly when it has a document that does not encode. Otherwise it gives its metadata record, followed by the encoded document exactly when it is a non-delete with a document. A failure carries the operation type and the encoder's error. |
| Bulk.Frame | bulk.go:102-104 | The body is empty exactly when there are no records, and a non-empty body ends with a newline. |
| Bulk.FrameOne | bulk.go:102-104 | One more record extends the body by that record followed by exactly one newline. |
| Bulk.FirstFailure | bulk.go:112-117 | The index at which the loop stops is no larger than the number of operations, and when smaller it names an operation whose document fails to encode. |
| Bulk.BeforeFirstFailure | bulk.go:112-117 | No operation before that index fails, so it is the first failure. |
| Bulk.FirstFailureNone | bulk.go:112-117 | The loop runs to the end exactly when every document encodes. |
| Bulk.BuildBulkBody | bulk.go:101-121 | There is no error exactly when the loop reaches the end, that is, when every document encodes. On success the body is the framed records of all operations. On failure the first failing operation stops the loop: the body holds the records of the operations before it and its own metadata record, and the error names its type and cause. |
| Bulk.RecordsOk | bulk.go:109-116 | The records exist exactly when every document encodes. |
| Bulk.RecordCount | bulk.go:103-118 | There are `|ops|` records, plus one per non-delete operation with a document. |
| Bulk.RecordAt | bulk.go:103-117 | Operation `i`'s metadata is record `i + DocCount(ops[..i])`, and its encoded document follows directly when it has one. |
| Bulk.RecordLayout | bulk.go:103-117 | The same placement holds for every operation at once. |
| Bulk.RecordsAppend | bulk.go:103-118 | The records of `a + b` are those of `a` followed by those of `b`, and the first error wins. |
| Bulk.BodyAppend | bulk.go:103-118 | On success, the body for `a + b` is the body for `a` followed by the body for `b`. |
| Bulk.DeleteHasNoDoc | bulk.go:113 | A delete writes only its metadata line. |
| Bulk.EmptyBody | bulk.go:103 | No operations give an empty body, and a successful body is empty only for no operations. |
| Scenarios.EqExample | expr_test.go:10-26 | `Eq{"a",1234}` compiles to `{"a":1234}` and to `{"term":{"a":1234}}`. |
| Scenarios.DocDBAndExample | expr_test.go:28-35 | Two `Eq` children under DocDB merge into `{"a":1234,"b":5678}`. |
| Scenarios.OpenSearchAndExample | expr_test.go:37-47 | `Eq` and `Match` under OpenSearch give the list of a term clause and a match clause. |
| Scenarios.IntervalExamples | expr_test.go:49-67 | Exclusive bounds give `gt`/`lt` and inclusive bounds give `gte`/`lte`, inside `range`. |
| Scenarios.WildcardExample | expr_test.go:69-80 | "Ad Ba" gives the clauses for "Ad" and "Ba", in that order. |
| Scenarios.NestedMapExample | map_test.go:23-26 | The nested map of the test renders as `{"a":1,"b":"2"}`. |
| Scenarios.TestMapText | map_test.go:16-33 | For any strings that need no escaping, the test's map without `b`, `g` and `k` renders as `{"a":1234,"c":true,"d":"…","e":"…","f":["…",1234],"h":["…"]}`, with each string between quotes. |
| Scenarios.TestMapExample | map_test.go:16-33 | With the test's own strings, that map renders as `{"a":1234,"c":true,"d":"abcdefgh","e":"0002-01-01T01:00:00Z","f":["abcd",1234],"h":["hello world"]}`, the expected text without the `b`, `g` and `k` fragments. |
| Scenarios.IndexAndDeleteExample | bulk_test.go:48-67 | An index operation followed by a delete gives: metadata, document, metadata, each on its own line. |

## Left out

- The network and client code. This covers all of `search_v4.go`, `alias.go`
  and `index.go`, and `Bulk`, `BulkWithRefresh` and `bulk` in `bulk.go`
  (lines 40-99). They are I/O against an OpenSearch server.
- `KVPair.String` (map.go:18-20): `fmt` formatting for debugging only.
- Float rendering (map.go:34-37): the `float32` and `float64` cases use
  shortest round-trip `e`-notation formatting, which is not modelled.
  `Value` has no float kind.
- UUID and time formatting (map.go:40-43). `Uuid` and `Time` carry the
  already-formatted text (`String()`, `Format(time.RFC3339)`), and only its
  quoting is modelled.
- GoQuote.Quote: copies every character outside ASCII unchanged. Go escapes
  non-printable Unicode characters and invalid UTF-8 bytes as `\u`, `\U` or
  `\x`. Strings are sequences of characters, not UTF-8 bytes.
- GoQuote.EscapeChar: copies every character from U+0020 up, DEL aside.
  Go escapes the non-printable characters outside ASCII as `\u` or `\U`,
  for example the C1 controls U+0080 to U+009F such as U+0085, so the model
  copies characters that Go escapes.
- The float entry `b` of the map test (map_test.go:18): its `e`-notation
  text is not modelled (see float rendering above). The nested map `g` has
  its own lemma, `Scenarios.NestedMapExample`, and is left out of
  `Scenarios.TestMap` to keep that proof small.
- Wellformed.JsonRoundTrip: holds only for maps whose strings avoid the
  control characters other than `\b \f \n \r \t`, avoid DEL, and avoid
  characters above U+FFFF. For the control characters and DEL Go's quoting
  emits `\a`, `\v` or `\xHH`, which JSON does not accept
  (Wellformed.ControlCharQuoteRejected). For a non-printable character above
  U+FFFF it emits `\UXXXXXXXX`, which JSON does not accept either
  (Wellformed.SupplementaryQuoteRejected). The model does not tell printable
  characters from non-printable ones, so printable characters above U+FFFF,
  which Go copies as they are, are excluded too.
- Wellformed.ValueRoundTrip: the same character restriction as
  Wellformed.JsonRoundTrip, for the same reasons.
- The JSON parser accepts only what the encoder emits. It has no
  insignificant whitespace, no `\u` escapes, no numbers with a fraction or
  an exponent, and no `null`.
- The panics on an unknown flavour (expr.go:61, 86, 124, 182, 235) and on
  an unknown value type (map.go:65). `Flavour` and `Value` are closed
  datatypes, so these cases cannot be written.
- The `[]uuid.UUID` entry of the map test (map_test.go:28). `appendValue`
  has no case for that type and panics there, although the test expects
  `["52eab613-…"]`. `List` of `Uuid` models a `[]any` holding UUIDs only.
  A `[]uuid.UUID` has no counterpart in the model.
- The OpenSearch `default:` branch of `And` (expr.go:229-230). A compiled
  result is always a single map or a list, so that branch cannot be
  written. The DocDB "expected map" branch is modelled, and it is proved
  unreachable.
- Error payloads built with `serr` (the index, id and operation type
  attached as context) are not modelled. The document error keeps the
  operation type and the encoder's error.
- Bulk.BuildBulkBody: does not model the "marshalling meta JSON" error
  (bulk.go:109-111). The body is written to a `bytes.Buffer` that accepts
  every write, and a map of strings always encodes, so that error cannot
  happen.
- Go's `encoding/json` is a parameter of the bulk model:
  - the encoding of a string (`str`), including its HTML-safe escapes;
  - the encoding of a document (`enc`), which may fail;
  - the sorted order of the two metadata keys, `_id` before `_index`, which
    is written out.
- Go's `int` is modelled as a 64-bit integer (`Values.int64`).
  `strconv.AppendInt(int64(x))` cannot wrap around, so no wrap-around is
  modelled.

=== FILE: andprops.dfy ===
/** Properties of `And` and of compilation as a whole (expr.go:191-236):
    which expressions each dialect accepts, the only error that can arise,
    the shape of a DocDB filter, the length of an OpenSearch clause list,
    and how conjunctions split, nest and stop at the first failing child. */
module AndProps {
  import opened Wrappers
  import opened Values
  import opened Split
  import opened Expressions
  import ExprProps

  /** The expressions DocDB accepts, defined without reference to the
      compiler: no `Match` and no `Wildcard` anywhere in the tree. */
  predicate DocDBSupported(e: Expr) {
    match e
    case Eq(_, _) => true
    case Match(_, _) => false
    case Wildcard(_, _) => false
    case Interval(_, _, _, _, _) => true
    case And(es) => forall i :: 0 <= i < |es| ==> DocDBSupported(es[i])
  }

  /** The number of OpenSearch clauses an expression yields, defined without
      reference to the compiler: one per leaf, except a wildcard which yields
      one per token, and a conjunction which adds up its children. */
  function ClauseCount(e: Expr): nat {
    match e
    case Eq(_, _) => 1
    case Match(_, _) => 1
    case Wildcard(_, text) => |Tokens(text)|
    case Interval(_, _, _, _, _) => 1
    case And(es) => ClauseCountAll(es)
  }

  function ClauseCountAll(es: seq<Expr>): nat {
    if es == [] then 0 else ClauseCount(es[0]) + ClauseCountAll(es[1..])
  }

  lemma {:induction false} IdentsAppend(a: seq<Expr>, b: seq<Expr>)
    ensures IdentsAll(a + b) == IdentsAll(a) + IdentsAll(b)
    decreases |a|
  {
    if a == [] {
      assert a + b == b;
    } else {
      assert (a + b)[0] == a[0];
      assert (a + b)[1..] == a[1..] + b;
      IdentsAppend(a[1..], b);
    }
  }

  /** Under DocDB compilation succeeds exactly on the supported expressions;
      a success is always a single map, never a list, whose top-level keys
      are the expression's `Idents` in order; and the only failure is
      `Unsupported`, so the "expected map" branch (expr.go:211-213) is
      unreachable. */
  lemma {:induction false} DocDBCompiles(e: Expr)
    ensures Compile(e, DocDB).Ok? <==> DocDBSupported(e)
    ensures Compile(e, DocDB).Ok? ==> Compile(e, DocDB).value.Single? && Keys(Compile(e, DocDB).value.m) == Idents(e)
    ensures Compile(e, DocDB).Err? ==> Compile(e, DocDB).error == Unsupported
  {
    if e.And? {
      AndDocDBCompiles(e.exprs);
    }
  }

  lemma {:induction false} AndDocDBCompiles(es: seq<Expr>)
    ensures AndDocDB(es).Ok? <==> forall i :: 0 <= i < |es| ==> DocDBSupported(es[i])
    ensures AndDocDB(es).Ok? ==> Keys(AndDocDB(es).value) == IdentsAll(es)
    ensures AndDocDB(es).Err? ==> AndDocDB(es).error == Unsupported
  {
    if es != [] {
      DocDBCompiles(es[0]);
      AndDocDBCompiles(es[1..]);
      if AndDocDB(es).Ok? {
        KeysConcat(Compile(es[0], DocDB).value.m, AndDocDB(es[1..]).value);
      }
      if !DocDBSupported(es[0]) {
        assert AndDocDB(es).Err?;
      } else if !AndDocDB(es[1..]).Ok? {
        UnsupportedInTail(es);
      } else {
        SupportedCons(es);
      }
    }
  }

  lemma UnsupportedInTail(es: seq<Expr>)
    requires es != [] && exists j :: 0 <= j < |es[1..]| && !DocDBSupported(es[1..][j])
    ensures exists i :: 0 <= i < |es| && !DocDBSupported(es[i])
  {
    var j :| 0 <= j < |es[1..]| && !DocDBSupported(es[1..][j]);
    assert !DocDBSupported(es[1 + j]);
  }

  lemma SupportedCons(es: seq<Expr>)
    requires es != [] && DocDBSupported(es[0])
    requires forall j :: 0 <= j < |es[1..]| ==> DocDBSupported(es[1..][j])
    ensures forall i :: 0 <= i < |es| ==> DocDBSupported(es[i])
  {
    forall i | 0 <= i < |es|
      ensures DocDBSupported(es[i])
    {
      if i > 0 {
        assert es[i] == es[1..][i - 1];
      }
    }
  }

  /** Under OpenSearch compilation never fails, and the clauses an expression
      contributes to an enclosing list number `ClauseCount(e)`. */
  lemma {:induction false} OpenSearchCompiles(e: Expr)
    ensures Compile(e, OpenSearch).Ok?
    ensures |Contribution(Compile(e, OpenSearch).value)| == ClauseCount(e)
  {
    match e
    case Wildcard(ident, text) =>
      ExprProps.WildcardCompiles(ident, text);
    case And(es) =>
      AndOpenSearchCompiles(es);
    case _ =>
  }

  lemma {:induction false} AndOpenSearchCompiles(es: seq<Expr>)
    ensures AndOpenSearch(es).Ok?
    ensures |AndOpenSearch(es).value| == ClauseCountAll(es)
  {
    if es != [] {
      OpenSearchCompiles(es[0]);
      AndOpenSearchCompiles(es[1..]);
    }
  }

  /** How two partial DocDB results combine: the first error wins, and two
      maps are concatenated. */
  function CombineDocDB(a: Result<Map, Error>, b: Result<Map, Error>): Result<Map, Error> {
    var x :- a;
    var y :- b;
    Ok(Concat(x, y))
  }

  /** Splitting the children of a DocDB conjunction anywhere: the result for
      `a + b` is that for `a` combined with that for `b`. */
  lemma {:induction false} AndDocDBAppend(a: seq<Expr>, b: seq<Expr>)
    ensures AndDocDB(a + b) == CombineDocDB(AndDocDB(a), AndDocDB(b))
    decreases |a|
  {
    if a == [] {
      assert a + b == b;
      if AndDocDB(b).Ok? {
        assert Concat(Map([]), AndDocDB(b).value) == AndDocDB(b).value;
      }
    } else {
      assert (a + b)[0] == a[0];
      assert (a + b)[1..] == a[1..] + b;
      AndDocDBAppend(a[1..], b);
      var c := Compile(a[0], DocDB);
      if c.Ok? && c.value.Single? && AndDocDB(a[1..]).Ok? && AndDocDB(b).Ok? {
        ConcatAssoc(c.value.m, AndDocDB(a[1..]).value, AndDocDB(b).value);
      }
    }
  }

  /** The same for an OpenSearch conjunction. */
  lemma {:induction false} AndOpenSearchAppend(a: seq<Expr>, b: seq<Expr>)
    ensures AndOpenSearch(a + b) == Combine(AndOpenSearch(a), AndOpenSearch(b))
    decreases |a|
  {
    if a == [] {
      assert a + b == b;
      if AndOpenSearch(b).Ok? {
        assert [] + AndOpenSearch(b).value == AndOpenSearch(b).value;
      }
    } else {
      assert (a + b)[0] == a[0];
      assert (a + b)[1..] == a[1..] + b;
      AndOpenSearchAppend(a[1..], b);
      var c := Compile(a[0], OpenSearch);
      if c.Ok? && AndOpenSearch(a[1..]).Ok? && AndOpenSearch(b).Ok? {
        var m, x, y := Contribution(c.value), AndOpenSearch(a[1..]).value, AndOpenSearch(b).value;
        assert m + (x + y) == (m + x) + y;
      }
    }
  }

  /** A conjunction nested as the first child of another is flattened into
      it, under either dialect. */
  lemma AndNested(a: seq<Expr>, b: seq<Expr>, fl: Flavour)
    ensures Compile(And([And(a)] + b), fl) == Compile(And(a + b), fl)
  {
    if fl == DocDB {
      AndDocDBAppend([And(a)], b);
      AndDocDBAppend(a, b);
      assert AndDocDB([And(a)]) == CombineDocDB(AndDocDB(a), Ok(Map([])));
      if AndDocDB(a).Ok? {
        assert Concat(AndDocDB(a).value, Map([])) == AndDocDB(a).value;
      }
    } else {
      AndOpenSearchAppend([And(a)], b);
      AndOpenSearchAppend(a, b);
      if AndOpenSearch(a).Ok? {
        assert AndOpenSearch(a).value + [] == AndOpenSearch(a).value;
      }
    }
  }

  /** A one-child conjunction under DocDB is the child itself, since a
      DocDB child is always a single map. */
  lemma AndSingleDocDB(e: Expr)
    ensures Compile(And([e]), DocDB) == Compile(e, DocDB)
  {
    DocDBCompiles(e);
    assert [e][1..] == [];
    assert AndDocDB([]) == Ok(Map([]));
    if Compile(e, DocDB).Ok? {
      var m := Compile(e, DocDB).value.m;
      assert m.pairs + [] == m.pairs;
      assert AndDocDB([e]) == Ok(Concat(m, Map([])));
    }
  }

  /** A one-child conjunction under OpenSearch is always a list: a child map
      becomes a one-element list, a child list is kept as it is. */
  lemma AndSingleOpenSearch(e: Expr)
    ensures Compile(e, OpenSearch).Ok? && Compile(e, OpenSearch).value.Single?
        ==> Compile(And([e]), OpenSearch) == Ok(Many([Compile(e, OpenSearch).value.m]))
    ensures Compile(e, OpenSearch).Ok? && Compile(e, OpenSearch).value.Many?
        ==> Compile(And([e]), OpenSearch) == Ok(Many(Compile(e, OpenSearch).value.ms))
  {
    OpenSearchCompiles(e);
    assert [e][1..] == [];
    assert AndOpenSearch([]) == Ok([]);
    var c := Compile(e, OpenSearch).value;
    assert AndOpenSearch([e]) == Ok(Contribution(c) + []);
    assert Contribution(c) + [] == Contribution(c);
  }

  /** Under DocDB the first child that fails decides the result: its error
      is returned unchanged, whatever follows it (expr.go:206-208). */
  lemma {:induction false} AndDocDBFirstError(es: seq<Expr>, i: int)
    requires 0 <= i < |es|
    requires forall j :: 0 <= j < i ==> DocDBSupported(es[j])
    requires !DocDBSupported(es[i])
    ensures Compile(And(es), DocDB) == Compile(es[i], DocDB) == Err(Unsupported)
    decreases i
  {
    DocDBCompiles(es[0]);
    DocDBCompiles(es[i]);
    if i > 0 {
      assert es[1..][i - 1] == es[i];
      assert forall j :: 0 <= j < i - 1 ==> es[1..][j] == es[j + 1];
      AndDocDBFirstError(es[1..], i - 1);
    }
  }
}

=== FILE: bulk.dfy ===
/** The body of an OpenSearch bulk request as `buildBulkBody` writes it
    (bulk.go:101-121): newline-delimited JSON records, one metadata record
    per operation followed, for operations that carry a document and are not
    deletes, by the document record.

    Go's `encoding/json` is a parameter: `str` is its encoding of a string
    (quoting with HTML-safe escapes) and `enc` its encoding of a document,
    which may fail. The writer is an in-memory buffer that accepts every
    write, so encoding the metadata record cannot fail. */
module Bulk {
  import opened Wrappers

  /** `BulkOperationType` and its four values (bulk.go:19-29). */
  type OperationType = string

  const OpCreate: OperationType := "create"
  const OpDelete: OperationType := "delete"
  const OpIndex: OperationType := "index"
  const OpUpdate: OperationType := "update"

  /** `BulkOperation[T]` (bulk.go:31-37); a nil `Doc` is `None`. */
  datatype BulkOperation<T> = BulkOperation(opType: OperationType, id: string, index: string, doc: Option<T>)

  /** The "marshalling document JSON" error with the operation type it
      names and the encoder's own error (bulk.go:114-116). */
  datatype BulkError<E> = DocError(opType: OperationType, cause: E)

  /** Whether a document record follows the metadata record (bulk.go:113). */
  predicate HasDoc<T>(op: BulkOperation<T>) {
    op.opType != OpDelete && op.doc.Some?
  }

  /** Whether the operation's document fails to encode. */
  predicate Fails<T, E>(op: BulkOperation<T>, enc: T -> Result<string, E>) {
    HasDoc(op) && enc(op.doc.value).Err?
  }

  /** The metadata record `{"<type>":{"_id":id,"_index":index}}`: Go's
      encoder writes map keys sorted, so `_id` precedes `_index`
      (bulk.go:104-108). */
  function MetaRecord<T>(op: BulkOperation<T>, str: string -> string): string {
    "{" + str(op.opType) + ":{" + str("_id") + ":" + str(op.id) + "," + str("_index") + ":" + str(op.index) + "}}"
  }

  /** The records of one operation, or the error its document gives. */
  function OpRecords<T, E>(op: BulkOperation<T>, str: string -> string, enc: T -> Result<string, E>)
    : (r: Result<seq<string>, BulkError<E>>)
    ensures r.Err? <==> Fails(op, enc)
    ensures r.Ok? ==> |r.value| == (if HasDoc(op) then 2 else 1) && r.value[0] == MetaRecord(op, str)
    ensures r.Ok? && HasDoc(op) ==> r.value[1] == enc(op.doc.value).value
    ensures r.Err? ==> r.error == DocError(op.opType, enc(op.doc.value).error)
  {
    var meta := MetaRecord(op, str);
    if !HasDoc(op) then Ok([meta])
    else
      match enc(op.doc.value)
      case Err(e) => Err(DocError(op.opType, e))
      case Ok(d) => Ok([meta, d])
  }

  /** The records of all operations in order, or the first error. */
  function Records<T, E>(ops: seq<BulkOperation<T>>, str: string -> string, enc: T -> Result<string, E>)
    : Result<seq<string>, BulkError<E>>
  {
    if ops == [] then Ok([])
    else
      var head :- OpRecords(ops[0], str, enc);
      var rest :- Records(ops[1..], str, enc);
      Ok(head + rest)
  }

  /** Every record followed by a newline, as `Encoder.Encode` writes it. */
  function Frame(records: seq<string>): (s: string)
    ensures records == [] <==> s == []
    ensures s != [] ==> s[|s| - 1] == '\n'
  {
    if records == [] then [] else records[0] + "\n" + Frame(records[1..])
  }

  /** The number of operations that carry a document record. */
  function DocCount<T>(ops: seq<BulkOperation<T>>): nat {
    if ops == [] then 0 else (if HasDoc(ops[0]) then 1 else 0) + DocCount(ops[1..])
  }

  /** The index of the first operation whose document fails to encode, or
      `|ops|` when every document encodes. */
  function FirstFailure<T, E>(ops: seq<BulkOperation<T>>, enc: T -> Result<string, E>): (k: nat)
    ensures k <= |ops|
    ensures k < |ops| ==> Fails(ops[k], enc)
  {
    if ops == [] || Fails(ops[0], enc) then 0 else 1 + FirstFailure(ops[1..], enc)
  }

  /** No operation before the first failure fails. */
  lemma {:induction false} BeforeFirstFailure<T, E>(ops: seq<BulkOperation<T>>, enc: T -> Result<string, E>)
    ensures forall j :: 0 <= j < FirstFailure(ops, enc) ==> !Fails(ops[j], enc)
  {
    if ops != [] && !Fails(ops[0], enc) {
      BeforeFirstFailure(ops[1..], enc);
      assert forall j :: 1 <= j < FirstFailure(ops, enc) ==> ops[j] == ops[1..][j - 1];
    }
  }

  /** The first failure is the only index with no failure before it that
      fails itself or is the end. */
  lemma FirstFailureIs<T, E>(ops: seq<BulkOperation<T>>, enc: T -> Result<string, E>, k: nat)
    requires k <= |ops| && (k < |ops| ==> Fails(ops[k], enc))
    requires forall j :: 0 <= j < k ==> !Fails(ops[j], enc)
    ensures FirstFailure(ops, enc) == k
  {
    BeforeFirstFailure(ops, enc);
  }

  /** There is no failure exactly when every document encodes. */
  lemma FirstFailureNone<T, E>(ops: seq<BulkOperation<T>>, enc: T -> Result<string, E>)
    ensures FirstFailure(ops, enc) == |ops| <==> forall i :: 0 <= i < |ops| ==> !Fails(ops[i], enc)
  {
    BeforeFirstFailure(ops, enc);
  }

  /** `buildBulkBody(ops, w)`: the text written to `w`, and the error. There
      is an error exactly when some document fails to encode. On success the
      text is the framed records of all operations. Otherwise the first
      failing operation stops the loop: the text holds the records of the
      operations before it and its own metadata record, and nothing of the
      operations after it. */
  method BuildBulkBody<T, E>(ops: seq<BulkOperation<T>>, str: string -> string, enc: T -> Result<string, E>)
    returns (w: string, err: Option<BulkError<E>>)
    ensures err.None? <==> FirstFailure(ops, enc) == |ops|
    ensures err.None? ==> Records(ops, str, enc).Ok? && w == Frame(Records(ops, str, enc).value)
    ensures err.Some? ==> var k := FirstFailure(ops, enc);
              && k < |ops|
              && Records(ops[..k], str, enc).Ok?
              && w == Frame(Records(ops[..k], str, enc).value) + MetaRecord(ops[k], str) + "\n"
              && err.value == DocError(ops[k].opType, enc(ops[k].doc.value).error)
  {
    w := "";
    var i := 0;
    ghost var done: seq<string> := [];
    assert ops[..0] == [];
    while i < |ops|
      invariant 0 <= i <= |ops|
      invariant Records(ops[..i], str, enc) == Ok(done)
      invariant w == Frame(done)
    {
      var op := ops[i];
      var meta := MetaRecord(op, str);
      if op.opType != OpDelete && op.doc.Some? {
        var d := enc(op.doc.value);
        if d.Err? {
          w := w + meta + "\n";
          err := Some(DocError(op.opType, d.error));
          assert Fails(ops[i], enc);
          PrefixSucceeds(ops, i, str, enc);
          FirstFailureIs(ops, enc, i);
          return;
        }
        StepWithDoc(ops, i, done, str, enc);
        w := w + meta + "\n" + d.value + "\n";
        done := done + [meta, d.value];
      } else {
        StepWithoutDoc(ops, i, done, str, enc);
        w := w + meta + "\n";
        done := done + [meta];
      }
      i := i + 1;
    }
    assert ops[..i] == ops;
    RecordsOk(ops, str, enc);
    FirstFailureIs(ops, enc, |ops|);
    err := None;
  }

  /** The operations before one whose records exist all encode. */
  lemma PrefixSucceeds<T, E>(ops: seq<BulkOperation<T>>, i: int, str: string -> string, enc: T -> Result<string, E>)
    requires 0 <= i <= |ops| && Records(ops[..i], str, enc).Ok?
    ensures forall j :: 0 <= j < i ==> !Fails(ops[j], enc)
  {
    RecordsOk(ops[..i], str, enc);
    assert forall j :: 0 <= j < i ==> ops[..i][j] == ops[j];
  }

  /** One loop step for an operation whose document encodes: its metadata
      and document records follow those already written. */
  lemma StepWithDoc<T, E>(ops: seq<BulkOperation<T>>, i: int, done: seq<string>,
                          str: string -> string, enc: T -> Result<string, E>)
    requires 0 <= i < |ops| && Records(ops[..i], str, enc) == Ok(done)
    requires HasDoc(ops[i]) && enc(ops[i].doc.value).Ok?
    ensures !Fails(ops[i], enc)
    ensures Records(ops[..i + 1], str, enc) == Ok(done + [MetaRecord(ops[i], str), enc(ops[i].doc.value).value])
    ensures Frame(done + [MetaRecord(ops[i], str), enc(ops[i].doc.value).value])
         == Frame(done) + MetaRecord(ops[i], str) + "\n" + enc(ops[i].doc.value).value + "\n"
  {
    var meta, d := MetaRecord(ops[i], str), enc(ops[i].doc.value).value;
    RecordsSnoc(ops, i, str, enc);
    assert OpRecords(ops[i], str, enc) == Ok([meta, d]);
    FrameTwo(done, meta, d);
  }

  /** One loop step for an operation without a document: only its metadata
      record follows those already written. */
  lemma StepWithoutDoc<T, E>(ops: seq<BulkOperation<T>>, i: int, done: seq<string>,
                             str: string -> string, enc: T -> Result<string, E>)
    requires 0 <= i < |ops| && Records(ops[..i], str, enc) == Ok(done)
    requires !HasDoc(ops[i])
    ensures !Fails(ops[i], enc)
    ensures Records(ops[..i + 1], str, enc) == Ok(done + [MetaRecord(ops[i], str)])
    ensures Frame(done + [MetaRecord(ops[i], str)]) == Frame(done) + MetaRecord(ops[i], str) + "\n"
  {
    var meta := MetaRecord(ops[i], str);
    RecordsSnoc(ops, i, str, enc);
    assert OpRecords(ops[i], str, enc) == Ok([meta]);
    FrameOne(done, meta);
  }

  lemma FrameOne(done: seq<string>, x: string)
    ensures Frame(done + [x]) == Frame(done) + x + "\n"
  {
    FrameAppend(done, [x]);
    assert [x][1..] == [];
  }

  lemma FrameTwo(done: seq<string>, x: string, y: string)
    ensures Frame(done + [x, y]) == Frame(done) + x + "\n" + y + "\n"
  {
    assert done + [x, y] == (done + [x]) + [y];
    FrameOne(done + [x], y);
    FrameOne(done, x);
  }

  /** One more operation adds its records after those of the earlier ones. */
  lemma RecordsSnoc<T, E>(ops: seq<BulkOperation<T>>, i: int, str: string -> string, enc: T -> Result<string, E>)
    requires 0 <= i < |ops|
    requires Records(ops[..i], str, enc).Ok?
    ensures !Fails(ops[i], enc) ==>
              Records(ops[..i + 1], str, enc) == Ok(Records(ops[..i], str, enc).value + OpRecords(ops[i], str, enc).value)
  {
    RecordsAppend(ops[..i], [ops[i]], str, enc);
    assert ops[..i] + [ops[i]] == ops[..i + 1];
    var r := OpRecords(ops[i], str, enc);
    assert [ops[i]][1..] == [];
    if r.Ok? {
      assert r.value + [] == r.value;
    }
  }

  lemma {:induction false} FrameAppend(a: seq<string>, b: seq<string>)
    ensures Frame(a + b) == Frame(a) + Frame(b)
    decreases |a|
  {
    if a == [] {
      assert a + b == b;
    } else {
      assert (a + b)[0] == a[0];
      assert (a + b)[1..] == a[1..] + b;
      FrameAppend(a[1..], b);
    }
  }

  /** The records of `a + b` are those of `a` followed by those of `b`, and
      an error in `a` hides whatever `b` would give. */
  lemma {:induction false} RecordsAppend<T, E>(a: seq<BulkOperation<T>>, b: seq<BulkOperation<T>>,
                                               str: string -> string, enc: T -> Result<string, E>)
    ensures Records(a + b, str, enc) == Combine(Records(a, str, enc), Records(b, str, enc))
    decreases |a|
  {
    if a == [] {
      assert a + b == b;
      if Records(b, str, enc).Ok? {
        assert [] + Records(b, str, enc).value == Records(b, str, enc).value;
      }
    } else {
      assert (a + b)[0] == a[0];
      assert (a + b)[1..] == a[1..] + b;
      RecordsAppend(a[1..], b, str, enc);
      var h := OpRecords(a[0], str, enc);
      if h.Ok? && Records(a[1..], str, enc).Ok? && Records(b, str, enc).Ok? {
        var x, y, z := h.value, Records(a[1..], str, enc).value, Records(b, str, enc).value;
        assert x + (y + z) == (x + y) + z;
      }
    }
  }

  /** On success the body of `a + b` is the body of `a` followed by the body
      of `b`. */
  lemma BodyAppend<T, E>(a: seq<BulkOperation<T>>, b: seq<BulkOperation<T>>,
                         str: string -> string, enc: T -> Result<string, E>)
    requires Records(a, str, enc).Ok? && Records(b, str, enc).Ok?
    ensures Records(a + b, str, enc).Ok?
    ensures Frame(Records(a + b, str, enc).value)
         == Frame(Records(a, str, enc).value) + Frame(Records(b, str, enc).value)
  {
    RecordsAppend(a, b, str, enc);
    FrameAppend(Records(a, str, enc).value, Records(b, str, enc).value);
  }

  /** The records exist exactly when no document fails to encode. */
  lemma {:induction false} RecordsOk<T, E>(ops: seq<BulkOperation<T>>, str: string -> string, enc: T -> Result<string, E>)
    ensures Records(ops, str, enc).Ok? <==> forall i :: 0 <= i < |ops| ==> !Fails(ops[i], enc)
    decreases |ops|
  {
    if ops != [] {
      RecordsOk(ops[1..], str, enc);
      if !Fails(ops[0], enc) && !(forall i :: 0 <= i < |ops| ==> !Fails(ops[i], enc)) {
        var k :| 0 <= k < |ops| && Fails(ops[k], enc);
        assert ops[k] == ops[1..][k - 1];
      }
      if Records(ops, str, enc).Ok? {
        forall i | 0 <= i < |ops|
          ensures !Fails(ops[i], enc)
        {
          if i > 0 {
            assert ops[i] == ops[1..][i - 1];
          }
        }
      }
    }
  }

  /** There is one record per operation plus one per operation with a
      document. */
  lemma {:induction false} RecordCount<T, E>(ops: seq<BulkOperation<T>>, str: string -> string, enc: T -> Result<string, E>)
    requires Records(ops, str, enc).Ok?
    ensures |Records(ops, str, enc).value| == |ops| + DocCount(ops)
    decreases |ops|
  {
    if ops != [] {
      RecordCount(ops[1..], str, enc);
    }
  }

  /** Operation `i` starts at record `i + DocCount(ops[..i])`: its metadata
      record there, and its document record right after it when it has one. */
  lemma {:induction false} RecordAt<T, E>(ops: seq<BulkOperation<T>>, i: int, str: string -> string, enc: T -> Result<string, E>)
    requires Records(ops, str, enc).Ok? && 0 <= i < |ops|
    ensures Placed(ops, Records(ops, str, enc).value, i, str, enc)
    decreases i
  {
    RecordsCons(ops, str, enc);
    if i == 0 {
      RecordAtFirst(ops, str, enc);
    } else {
      RecordAt(ops[1..], i - 1, str, enc);
      RecordAtNext(ops, i, str, enc);
    }
  }

  lemma RecordAtFirst<T, E>(ops: seq<BulkOperation<T>>, str: string -> string, enc: T -> Result<string, E>)
    requires Records(ops, str, enc).Ok? && 0 < |ops|
    ensures Placed(ops, Records(ops, str, enc).value, 0, str, enc)
  {
    var h := OpRecords(ops[0], str, enc).value;
    var rest := Records(ops[1..], str, enc).value;
    RecordsCons(ops, str, enc);
    assert ops[..0] == [];
    assert (h + rest)[0] == h[0];
    if HasDoc(ops[0]) {
      assert (h + rest)[1] == h[1];
    }
  }

  /** Placement in the tail carries over to the whole list, shifted by the
      records of the first operation. */
  lemma RecordAtNext<T, E>(ops: seq<BulkOperation<T>>, i: int, str: string -> string, enc: T -> Result<string, E>)
    requires Records(ops, str, enc).Ok? && 0 < i < |ops|
    requires Records(ops[1..], str, enc).Ok?
    requires Placed(ops[1..], Records(ops[1..], str, enc).value, i - 1, str, enc)
    ensures Placed(ops, Records(ops, str, enc).value, i, str, enc)
  {
    RecordsCons(ops, str, enc);
    DocCountShift(ops, i);
    PlacedAfterHead(ops, i, OpRecords(ops[0], str, enc).value, Records(ops[1..], str, enc).value, str, enc);
  }

  /** The placement step with the records of the first operation `h` and of
      the rest `rest` kept abstract. */
  lemma PlacedAfterHead<T, E>(ops: seq<BulkOperation<T>>, i: int, h: seq<string>, rest: seq<string>,
                              str: string -> string, enc: T -> Result<string, E>)
    requires 0 < i < |ops|
    requires |h| == (if HasDoc(ops[0]) then 2 else 1)
    requires DocCount(ops[..i]) == (if HasDoc(ops[0]) then 1 else 0) + DocCount(ops[1..][..i - 1])
    requires Placed(ops[1..], rest, i - 1, str, enc)
    ensures Placed(ops, h + rest, i, str, enc)
  {
    var q := i - 1 + DocCount(ops[1..][..i - 1]);
    assert ops[1..][i - 1] == ops[i];
    PlacedAtShift(h, rest, q, ops[i], str, enc);
  }

  /** The records of a nonempty list: those of its first operation, then
      those of the rest. */
  lemma RecordsCons<T, E>(ops: seq<BulkOperation<T>>, str: string -> string, enc: T -> Result<string, E>)
    requires Records(ops, str, enc).Ok? && |ops| > 0
    ensures OpRecords(ops[0], str, enc).Ok? && Records(ops[1..], str, enc).Ok?
    ensures Records(ops, str, enc).value == OpRecords(ops[0], str, enc).value + Records(ops[1..], str, enc).value
  {
  }

  lemma DocCountShift<T>(ops: seq<BulkOperation<T>>, i: int)
    requires 0 < i <= |ops|
    ensures DocCount(ops[..i]) == (if HasDoc(ops[0]) then 1 else 0) + DocCount(ops[1..][..i - 1])
  {
    assert ops[..i][0] == ops[0];
    assert ops[..i][1..] == ops[1..][..i - 1];
  }

  /** Operation `i` has its records in `r` at position `i + DocCount(ops[..i])`:
      its metadata record there, and the encoding of its document right after
      it when it has one. */
  predicate Placed<T, E>(ops: seq<BulkOperation<T>>, r: seq<string>, i: int, str: string -> string, enc: T -> Result<string, E>)
    requires 0 <= i < |ops|
  {
    PlacedAt(r, i + DocCount(ops[..i]), ops[i], str, enc)
  }

  /** The records of `op` in `r` from position `p` on: its metadata record,
      then the encoding of its document when it has one. */
  predicate PlacedAt<T, E>(r: seq<string>, p: int, op: BulkOperation<T>, str: string -> string, enc: T -> Result<string, E>) {
    && 0 <= p < |r| && r[p] == MetaRecord(op, str)
    && (HasDoc(op) ==> p + 1 < |r| && enc(op.doc.value) == Ok(r[p + 1]))
  }

  /** Records placed in `rest` stay placed, shifted by `|h|`, in `h + rest`. */
  lemma PlacedAtShift<T, E>(h: seq<string>, rest: seq<string>, q: int, op: BulkOperation<T>,
                            str: string -> string, enc: T -> Result<string, E>)
    requires PlacedAt(rest, q, op, str, enc)
    ensures PlacedAt(h + rest, |h| + q, op, str, enc)
  {
    assert (h + rest)[|h| + q] == rest[q];
    if HasDoc(op) {
      assert (h + rest)[|h| + q + 1] == rest[q + 1];
    }
  }

  /** Every operation's records sit where `Placed` says. */
  lemma RecordLayout<T, E>(ops: seq<BulkOperation<T>>, str: string -> string, enc: T -> Result<string, E>)
    requires Records(ops, str, enc).Ok?
    ensures forall i :: 0 <= i < |ops| ==> Placed(ops, Records(ops, str, enc).value, i, str, enc)
  {
    forall i | 0 <= i < |ops|
      ensures Placed(ops, Records(ops, str, enc).value, i, str, enc)
    {
      RecordAt(ops, i, str, enc);
    }
  }

  /** A delete writes only its metadata record, even when it carries a
      document (bulk.go:113; bulk_test.go:48-67). */
  lemma DeleteHasNoDoc<T, E>(op: BulkOperation<T>, str: string -> string, enc: T -> Result<string, E>)
    requires op.opType == OpDelete
    ensures Records([op], str, enc) == Ok([MetaRecord(op, str)])
    ensures Frame(Records([op], str, enc).value) == MetaRecord(op, str) + "\n"
  {
    assert [op][1..] == [];
    assert [MetaRecord(op, str)] + [] == [MetaRecord(op, str)];
  }

  /** The body is empty exactly when there are no operations (bulk.go:103). */
  lemma EmptyBody<T, E>(ops: seq<BulkOperation<T>>, str: string -> string, enc: T -> Result<string, E>)
    ensures ops == [] ==> Records(ops, str, enc) == Ok([])
    ensures Records(ops, str, enc).Ok? ==> (Frame(Records(ops, str, enc).value) == "" <==> ops == [])
  {
    if ops != [] && Records(ops, str, enc).Ok? {
      assert |OpRecords(ops[0], str, enc).value| > 0;
    }
  }
}

=== FILE: decimal.dfy ===
/** Base-10 integer text as written by Go's `strconv.AppendInt(b, x, 10)`
    (used for the `int` case of `appendValue`, map.go:32-33): an optional
    minus sign followed by the digits of the magnitude, without leading zeros. */
module Decimal {

  predicate IsDigit(c: char) {
    '0' <= c <= '9'
  }

  predicate AllDigits(s: string) {
    forall i :: 0 <= i < |s| ==> IsDigit(s[i])
  }

  /** A non-empty digit string without a superfluous leading zero. */
  predicate Canonical(s: string) {
    |s| >= 1 && AllDigits(s) && (|s| > 1 ==> s[0] != '0')
  }

  function DigitChar(d: nat): (c: char)
    requires d < 10
    ensures IsDigit(c)
  {
    ('0' as int + d) as char
  }

  function DigitValue(c: char): (d: nat)
    requires IsDigit(c)
    ensures d < 10 && DigitChar(d) == c
  {
    c as int - '0' as int
  }

  /** The decimal digits of `n`. */
  function NatText(n: nat): (s: string)
    ensures Canonical(s)
    ensures n > 0 ==> s[0] != '0'
    decreases n
  {
    if n < 10 then [DigitChar(n)] else NatText(n / 10) + [DigitChar(n % 10)]
  }

  /** The number a digit string denotes; the reading a JSON parser gives it. */
  function DigitsValue(s: string): nat
    requires AllDigits(s)
    decreases |s|
  {
    if s == [] then 0 else DigitsValue(s[..|s| - 1]) * 10 + DigitValue(s[|s| - 1])
  }

  /** `strconv.AppendInt(nil, i, 10)`. */
  function IntText(i: int): (s: string)
    ensures |s| >= 1
    ensures s[0] == '-' <==> i < 0
    ensures i < 0 ==> Canonical(s[1..]) && s[1] != '0'
    ensures i >= 0 ==> Canonical(s)
  {
    if i < 0 then "-" + NatText(-i) else NatText(i)
  }

  /** Reading back the digits gives the number that was written. */
  lemma {:induction false} NatTextRoundTrip(n: nat)
    ensures DigitsValue(NatText(n)) == n
    decreases n
  {
    if n >= 10 {
      var s := NatText(n);
      assert s[..|s| - 1] == NatText(n / 10);
      NatTextRoundTrip(n / 10);
    }
  }

  lemma {:induction false} LeadingDigitPositive(s: string)
    requires Canonical(s) && s[0] != '0'
    ensures DigitsValue(s) >= 1
    decreases |s|
  {
    if |s| > 1 {
      LeadingDigitPositive(s[..|s| - 1]);
    }
  }

  /** Conversely, every canonical digit string is the text of the number it
      denotes, so the rendering of integers is a bijection onto them. */
  lemma {:induction false} DigitsRoundTrip(s: string)
    requires Canonical(s)
    ensures NatText(DigitsValue(s)) == s
    decreases |s|
  {
    if |s| > 1 {
      var init := s[..|s| - 1];
      LeadingDigitPositive(init);
      DigitsRoundTrip(init);
      var v := DigitsValue(s);
      assert v / 10 == DigitsValue(init);
      assert v % 10 == DigitValue(s[|s| - 1]);
      assert s == init + [s[|s| - 1]];
    }
  }

  /** Signed round trip: the text of `i` determines `i`. */
  lemma IntTextInjective(i: int, j: int)
    requires IntText(i) == IntText(j)
    ensures i == j
  {
    if i < 0 {
      NegText(i);
      NegText(j);
    } else {
      NatTextRoundTrip(i);
      NatTextRoundTrip(j);
    }
  }

  /** The digits after the minus sign of a negative number read back as its
      magnitude. */
  lemma NegText(i: int)
    requires i < 0
    ensures DigitsValue(IntText(i)[1..]) == -i
  {
    assert IntText(i)[1..] == NatText(-i);
    NatTextRoundTrip(-i);
  }
}

=== FILE: expr.dfy ===
/** The filter-expression AST of expr.go and its compilation into either
    target dialect: `DocDB` (a document-store filter with implicit equality
    and `$gt`/`$gte`/`$lt`/`$lte` operators) or `OpenSearch` (query DSL with
    `term`/`match`/`wildcard`/`range` clauses). */
module Expressions {
  import opened Wrappers
  import opened Values
  import Split

  /** `ExprFlavour` (expr.go:11-18). A closed enumeration, so the
      "unknown expression flavour" panics cannot be reached. */
  datatype Flavour = DocDB | OpenSearch

  /** `ExprFlavour.String` (expr.go:20-29). */
  function FlavourName(fl: Flavour): (name: string)
    ensures name == "DocDB" <==> fl == DocDB
    ensures name == "OpenSearch" <==> fl == OpenSearch
  {
    match fl
    case DocDB => "DocDB"
    case OpenSearch => "OpenSearch"
  }

  /** The five AST nodes of expr.go. The Go type parameter of `Eq` and
      `Interval` becomes the closed `Value` the encoder accepts; a nil bound
      pointer of `Interval` becomes `None`. */
  datatype Expr =
    | Eq(ident: string, value: Value)
    | Match(ident: string, text: string)
    | Wildcard(ident: string, text: string)
    | Interval(ident: string, from: Option<Value>, fromInclusive: bool, to: Option<Value>, toInclusive: bool)
    | And(exprs: seq<Expr>)

  /** The dynamic type of what `Map` returns: a single `Map` or a `[]Map`. */
  datatype Compiled = Single(m: Map) | Many(ms: seq<Map>)

  /** `errors.ErrUnsupported`, and the "expected map" error of `And` that
      carries the offending child result (expr.go:212, 230). */
  datatype Error = Unsupported | ExpectedMap(got: Compiled)

  /** The one-pair map `{k: v}`. */
  function Pair(k: string, v: Value): (m: Map)
    ensures Keys(m) == [k] && Lookup(m, k) == Some(v)
  {
    Map([KVPair(k, v)])
  }

  /** `Idents` of every node (expr.go:44-46, 71-73, 96-98, 137-139, 191-197). */
  function Idents(e: Expr): seq<string>
  {
    match e
    case Eq(ident, _) => [ident]
    case Match(ident, _) => [ident]
    case Wildcard(ident, _) => [ident]
    case Interval(ident, _, _, _, _) => [ident]
    case And(es) => IdentsAll(es)
  }

  function IdentsAll(es: seq<Expr>): seq<string>
  {
    if es == [] then [] else Idents(es[0]) + IdentsAll(es[1..])
  }

  /** The operator for the lower bound (expr.go:147-150, 165-168). */
  function LowerOp(fl: Flavour, inclusive: bool): string
  {
    match fl
    case DocDB => if inclusive then "$gte" else "$gt"
    case OpenSearch => if inclusive then "gte" else "gt"
  }

  /** The operator for the upper bound (expr.go:154-157, 172-175). */
  function UpperOp(fl: Flavour, inclusive: bool): string
  {
    match fl
    case DocDB => if inclusive then "$lte" else "$lt"
    case OpenSearch => if inclusive then "lte" else "lt"
  }

  /** The `conds` list of `Interval.Map`: the lower bound, then the upper
      bound, each only when present (expr.go:145-159, 163-177). */
  function Bounds(fl: Flavour, from: Option<Value>, fromInclusive: bool, to: Option<Value>, toInclusive: bool): Map
  {
    var lower := if from.Some? then [KVPair(LowerOp(fl, fromInclusive), from.value)] else [];
    var upper := if to.Some? then [KVPair(UpperOp(fl, toInclusive), to.value)] else [];
    Map(lower + upper)
  }

  /** One wildcard clause (expr.go:112-118). */
  function WildcardClause(ident: string, token: string): Map
  {
    Pair("wildcard", Object(Pair(ident, Object(Map([
      KVPair("value", Str("*" + token + "*")),
      KVPair("case_insensitive", Bool(true))])))))
  }

  /** The loop of `Wildcard.Map` over the split parts, skipping empty ones
      (expr.go:107-119). */
  function WildcardClauses(ident: string, parts: seq<string>): seq<Map>
  {
    if parts == [] then []
    else if parts[0] == "" then WildcardClauses(ident, parts[1..])
    else [WildcardClause(ident, parts[0])] + WildcardClauses(ident, parts[1..])
  }

  /** `Map(fl)` of every node (expr.go:49-62, 76-87, 101-125, 142-183, 200-236). */
  function Compile(e: Expr, fl: Flavour): Result<Compiled, Error>
  {
    match e
    case Eq(ident, v) =>
      if fl == DocDB then Ok(Single(Pair(ident, v)))
      else Ok(Single(Pair("term", Object(Pair(ident, v)))))
    case Match(ident, text) =>
      if fl == DocDB then Err(Unsupported)
      else Ok(Single(Pair("match", Object(Pair(ident, Str(text))))))
    case Wildcard(ident, text) =>
      if fl == DocDB then Err(Unsupported)
      else Ok(Many(WildcardClauses(ident, Split.Split(text, ' '))))
    case Interval(ident, from, fi, to, ti) =>
      var conds := Object(Bounds(fl, from, fi, to, ti));
      if fl == DocDB then Ok(Single(Pair(ident, conds)))
      else Ok(Single(Pair("range", Object(Pair(ident, conds)))))
    case And(es) =>
      if fl == DocDB then
        var m :- AndDocDB(es);
        Ok(Single(m))
      else
        var ms :- AndOpenSearch(es);
        Ok(Many(ms))
  }

  /** The DocDB loop of `And.Map` (expr.go:203-215): each child must give a
      single map, whose pairs are appended; the first error is returned. */
  function AndDocDB(es: seq<Expr>): Result<Map, Error>
  {
    if es == [] then Ok(Map([]))
    else
      var c :- Compile(es[0], DocDB);
      match c
      case Many(_) => Err(ExpectedMap(c))
      case Single(m) =>
        var rest :- AndDocDB(es[1..]);
        Ok(Concat(m, rest))
  }

  /** What one child adds to the OpenSearch list: a single map is one
      element, a list all of its elements (expr.go:224-228). */
  function Contribution(c: Compiled): (ms: seq<Map>)
    ensures c.Single? ==> ms == [c.m]
    ensures c.Many? ==> ms == c.ms
  {
    match c
    case Single(m) => [m]
    case Many(ms) => ms
  }

  /** The OpenSearch loop of `And.Map` (expr.go:217-233): the children's
      results flattened into one list; the first error is returned. */
  function AndOpenSearch(es: seq<Expr>): Result<seq<Map>, Error>
  {
    if es == [] then Ok([])
    else
      var c :- Compile(es[0], OpenSearch);
      var rest :- AndOpenSearch(es[1..]);
      Ok(Contribution(c) + rest)
  }
}

=== FILE: exprprops.dfy ===
/** Properties of the compiler of expr.go: the per-node shapes, the case
    table of range operators, wildcard tokenisation, how `And` combines its
    children under each dialect, error propagation, and the agreement of
    `Idents` with the keys a DocDB filter gets. */
module ExprProps {
  import opened Wrappers
  import opened Values
  import opened GoQuote
  import opened Render
  import opened Split
  import opened Expressions

  /** Characters Go's quoting copies unchanged. */
  predicate Plain(s: string) {
    forall i :: 0 <= i < |s| ==> s[i] != '"' && s[i] != '\\' && 0x20 <= s[i] as int < 0x7f
  }

  lemma {:induction false} QuotePlain(s: string)
    requires Plain(s)
    ensures Quote(s) == "\"" + s + "\""
    decreases |s|
  {
    QuoteBodyPlain(s);
  }

  lemma {:induction false} QuoteBodyPlain(s: string)
    requires Plain(s)
    ensures QuoteBody(s) == s
    decreases |s|
  {
    if s != [] {
      QuoteBodyPlain(s[1..]);
      assert [s[0]] + s[1..] == s;
    }
  }

  /** The text of a one-pair map. */
  lemma PairText1(k: string, v: Value)
    ensures MapText(Pair(k, v)) == "{" + Quote(k) + ":" + ValueText(v) + "}"
  {
    assert PairTexts([KVPair(k, v)]) == [PairText(KVPair(k, v))];
  }

  /** Regrouping of a concatenation, proved apart from its callers so that
      the solver sees only the strings involved. */
  lemma Nest(a: string, q: string, t: string)
    ensures "{" + a + ":" + ("{" + q + ":" + t + "}") + "}" == "{" + a + ":{" + q + ":" + t + "}}"
  {
  }

  /** The text of `{k1:{k2: v}}`. */
  lemma NestedText(k1: string, k2: string, v: Value)
    ensures MapText(Pair(k1, Object(Pair(k2, v)))) == "{" + Quote(k1) + ":{" + Quote(k2) + ":" + ValueText(v) + "}}"
  {
    PairText1(k2, v);
    PairText1(k1, Object(Pair(k2, v)));
    Nest(Quote(k1), Quote(k2), ValueText(v));
  }

  /** `Eq` (expr.go:49-59): `{ident: value}` under DocDB and
      `{"term":{ident: value}}` under OpenSearch, and never an error. */
  lemma EqCompiles(ident: string, v: Value)
    ensures Compile(Eq(ident, v), DocDB).Ok? && Compile(Eq(ident, v), DocDB).value.Single?
    ensures Compile(Eq(ident, v), OpenSearch).Ok? && Compile(Eq(ident, v), OpenSearch).value.Single?
    ensures MapText(Compile(Eq(ident, v), DocDB).value.m) == "{" + Quote(ident) + ":" + ValueText(v) + "}"
    ensures MapText(Compile(Eq(ident, v), OpenSearch).value.m)
         == "{" + Quote("term") + ":{" + Quote(ident) + ":" + ValueText(v) + "}}"
  {
    PairText1(ident, v);
    NestedText("term", ident, v);
  }

  /** `Match` (expr.go:76-84): unsupported under DocDB, and
      `{"match":{ident: text}}` under OpenSearch. */
  lemma MatchCompiles(ident: string, text: string)
    ensures Compile(Match(ident, text), DocDB) == Err(Unsupported)
    ensures Compile(Match(ident, text), OpenSearch).Ok? && Compile(Match(ident, text), OpenSearch).value.Single?
    ensures MapText(Compile(Match(ident, text), OpenSearch).value.m)
         == "{" + Quote("match") + ":{" + Quote(ident) + ":" + Quote(text) + "}}"
  {
    NestedText("match", ident, Str(text));
  }

  function WildcardsOf(ident: string, tokens: seq<string>): (cs: seq<Map>)
    ensures |cs| == |tokens|
    ensures forall i :: 0 <= i < |tokens| ==> cs[i] == WildcardClause(ident, tokens[i])
  {
    if tokens == [] then [] else [WildcardClause(ident, tokens[0])] + WildcardsOf(ident, tokens[1..])
  }

  lemma {:induction false} WildcardClausesAreTokens(ident: string, parts: seq<string>)
    ensures WildcardClauses(ident, parts) == WildcardsOf(ident, NonEmpty(parts))
    decreases |parts|
  {
    if parts != [] {
      WildcardClausesAreTokens(ident, parts[1..]);
    }
  }

  /** `Wildcard` (expr.go:101-121): unsupported under DocDB; under OpenSearch
      always a list, with one clause per space-separated token, in order. */
  lemma WildcardCompiles(ident: string, text: string)
    ensures Compile(Wildcard(ident, text), DocDB) == Err(Unsupported)
    ensures var r := Compile(Wildcard(ident, text), OpenSearch);
      && r.Ok? && r.value.Many?
      && |r.value.ms| == |Tokens(text)|
      && forall i :: 0 <= i < |r.value.ms| ==> r.value.ms[i] == WildcardClause(ident, Tokens(text)[i])
  {
    WildcardClausesAreTokens(ident, Split.Split(text, ' '));
  }

  /** Regrouping of a concatenation, proved apart from its callers so that
      the solver sees only the strings involved. */
  lemma Assoc2(a: string, b: string, c: string, d: string)
    ensures "{" + ((a + ":" + b) + "," + (c + ":" + d)) + "}" == "{" + a + ":" + b + "," + c + ":" + d + "}"
  {
  }

  /** The text of a two-pair map. */
  lemma PairText2(k1: string, v1: Value, k2: string, v2: Value)
    ensures MapText(Map([KVPair(k1, v1), KVPair(k2, v2)]))
         == "{" + Quote(k1) + ":" + ValueText(v1) + "," + Quote(k2) + ":" + ValueText(v2) + "}"
  {
    var ps := [PairText(KVPair(k1, v1)), PairText(KVPair(k2, v2))];
    assert PairTexts([KVPair(k1, v1), KVPair(k2, v2)]) == ps;
    assert Joined(ps) == ps[0] + "," + Joined(ps[1..]);
    assert ps[1..] == [ps[1]];
    Assoc2(Quote(k1), ValueText(v1), Quote(k2), ValueText(v2));
  }

  /** Regrouping of a concatenation, proved apart from its callers so that
      the solver sees only the strings involved. */
  lemma ClauseAssoc(qw: string, qi: string, qv: string, qx: string, qc: string)
    ensures "{" + qw + ":{" + qi + ":" + ("{" + qv + ":" + qx + "," + qc + ":" + "true" + "}") + "}}"
         == "{" + qw + ":{" + qi + ":{" + qv + ":" + qx + "," + qc + ":true}}}"
  {
  }

  /** The clause text with its keywords left abstract, so that the
      keywords' quoted forms are never expanded. */
  lemma ClauseText(kw: string, ident: string, kv: string, x: string, kc: string)
    ensures MapText(Pair(kw, Object(Pair(ident, Object(Map([KVPair(kv, Str(x)), KVPair(kc, Bool(true))]))))))
         == "{" + Quote(kw) + ":{" + Quote(ident) + ":{" + Quote(kv) + ":" + Quote(x) + "," + Quote(kc) + ":true}}}"
  {
    var inner := Map([KVPair(kv, Str(x)), KVPair(kc, Bool(true))]);
    PairText2(kv, Str(x), kc, Bool(true));
    assert ValueText(Str(x)) == Quote(x) && ValueText(Bool(true)) == "true";
    var body := "{" + Quote(kv) + ":" + Quote(x) + "," + Quote(kc) + ":" + "true" + "}";
    assert MapText(inner) == body;
    NestedText(kw, ident, Object(inner));
    assert ValueText(Object(inner)) == body;
    ClauseAssoc(Quote(kw), Quote(ident), Quote(kv), Quote(x), Quote(kc));
  }

  /** The text of one wildcard clause (expr.go:112-118):
      `{"wildcard":{ident:{"value":"*token*","case_insensitive":true}}}`. */
  lemma WildcardClauseText(ident: string, token: string)
    ensures MapText(WildcardClause(ident, token))
         == "{" + Quote("wildcard") + ":{" + Quote(ident) + ":{" + Quote("value") + ":" + Quote("*" + token + "*")
            + "," + Quote("case_insensitive") + ":true}}}"
  {
    ClauseText("wildcard", ident, "value", "*" + token + "*", "case_insensitive");
  }

  /** An empty or all-space text yields the empty list (expr.go:106-111). */
  lemma WildcardNoTokens(ident: string, text: string)
    ensures Compile(Wildcard(ident, text), OpenSearch) == Ok(Many([]))
        <==> forall i :: 0 <= i < |text| ==> text[i] == ' '
  {
    WildcardCompiles(ident, text);
    TokensEmpty(text);
  }

  /** Extra spaces add no clause: the clauses for `a + " " + b` are those of
      `a` followed by those of `b`. */
  lemma WildcardConcat(ident: string, a: string, b: string)
    ensures Compile(Wildcard(ident, a + " " + b), OpenSearch).value.ms
         == Compile(Wildcard(ident, a), OpenSearch).value.ms + Compile(Wildcard(ident, b), OpenSearch).value.ms
  {
    WildcardIsTokens(ident, a + " " + b);
    WildcardIsTokens(ident, a);
    WildcardIsTokens(ident, b);
    TokensConcat(a, b);
    WildcardsOfAppend(ident, Tokens(a), Tokens(b));
  }

  /** The OpenSearch list of a `Wildcard` is the clause list of its tokens. */
  lemma WildcardIsTokens(ident: string, text: string)
    ensures Compile(Wildcard(ident, text), OpenSearch) == Ok(Many(WildcardsOf(ident, Tokens(text))))
  {
    WildcardClausesAreTokens(ident, Split.Split(text, ' '));
  }

  lemma WildcardsOfAppend(ident: string, a: seq<string>, b: seq<string>)
    ensures WildcardsOf(ident, a + b) == WildcardsOf(ident, a) + WildcardsOf(ident, b)
  {
  }

  lemma OpsDistinct(fl: Flavour, b: bool, c: bool)
    ensures LowerOp(fl, b) != UpperOp(fl, c)
    ensures LowerOp(fl, b) == LowerOp(fl, c) <==> b == c
    ensures UpperOp(fl, b) == UpperOp(fl, c) <==> b == c
  {
    if fl == DocDB {
      assert LowerOp(fl, b)[1] == 'g' && UpperOp(fl, c)[1] == 'l';
      assert LowerOp(fl, true)[|LowerOp(fl, true)| - 1] == 'e';
      assert UpperOp(fl, true)[|UpperOp(fl, true)| - 1] == 'e';
    } else {
      assert LowerOp(fl, b)[0] == 'g' && UpperOp(fl, c)[0] == 'l';
    }
  }

  /** The DocDB operators are the OpenSearch ones with a `$` prefix
      (expr.go:147-157, 165-175). */
  lemma DollarPrefix(b: bool)
    ensures LowerOp(DocDB, b) == "$" + LowerOp(OpenSearch, b)
    ensures UpperOp(DocDB, b) == "$" + UpperOp(OpenSearch, b)
  {
  }

  /** The shape of the `Interval` conditions (expr.go:145-159, 163-177): at
      most two, the lower bound first and the upper bound last, and an absent
      bound contributes nothing. */
  lemma IntervalConds(fl: Flavour, from: Option<Value>, fi: bool, to: Option<Value>, ti: bool)
    ensures var conds := Bounds(fl, from, fi, to, ti).pairs;
      && |conds| == (if from.Some? then 1 else 0) + (if to.Some? then 1 else 0)
      && (from.Some? ==> conds[0] == KVPair(LowerOp(fl, fi), from.value))
      && (to.Some? ==> conds[|conds| - 1] == KVPair(UpperOp(fl, ti), to.value))
  {
  }

  /** Read as a map, the conditions hold the operator key of each present
      bound, the one its inclusive flag selects, mapped to that bound, and no
      other operator key: `gte` for an inclusive lower bound, `gt` for an
      exclusive one, `lte`/`lt` likewise for the upper bound. */
  lemma IntervalLookup(fl: Flavour, from: Option<Value>, fi: bool, to: Option<Value>, ti: bool, b: bool)
    ensures Lookup(Bounds(fl, from, fi, to, ti), LowerOp(fl, b)) == (if from.Some? && fi == b then from else None)
    ensures Lookup(Bounds(fl, from, fi, to, ti), UpperOp(fl, b)) == (if to.Some? && ti == b then to else None)
  {
    OpsDistinct(fl, b, ti);
    OpsDistinct(fl, fi, b);
    LookupBounds(LowerOp(fl, fi), UpperOp(fl, ti), from, to, LowerOp(fl, b));
    LookupBounds(LowerOp(fl, fi), UpperOp(fl, ti), from, to, UpperOp(fl, b));
  }

  /** Lookup in a map of at most two pairs with distinct keys `lo` and `hi`. */
  lemma LookupBounds(lo: string, hi: string, from: Option<Value>, to: Option<Value>, k: string)
    requires lo != hi
    ensures var lower := if from.Some? then [KVPair(lo, from.value)] else [];
      var upper := if to.Some? then [KVPair(hi, to.value)] else [];
      Lookup(Map(lower + upper), k)
      == (if from.Some? && k == lo then from else if to.Some? && k == hi then to else None)
  {
    var lower := if from.Some? then [KVPair(lo, from.value)] else [];
    var upper := if to.Some? then [KVPair(hi, to.value)] else [];
    if from.Some? {
      assert (lower + upper)[1..] == upper;
    } else {
      assert lower + upper == upper;
    }
  }

  /** How `Interval` wraps its conditions (expr.go:160-161, 178-180):
      `{ident: conds}` under DocDB, `{"range":{ident: conds}}` under OpenSearch. */
  lemma IntervalCompiles(ident: string, from: Option<Value>, fi: bool, to: Option<Value>, ti: bool)
    ensures var conds := Bounds(DocDB, from, fi, to, ti);
      && Compile(Interval(ident, from, fi, to, ti), DocDB).Ok?
      && MapText(Compile(Interval(ident, from, fi, to, ti), DocDB).value.m)
         == "{" + Quote(ident) + ":" + MapText(conds) + "}"
    ensures var conds := Bounds(OpenSearch, from, fi, to, ti);
      && Compile(Interval(ident, from, fi, to, ti), OpenSearch).Ok?
      && MapText(Compile(Interval(ident, from, fi, to, ti), OpenSearch).value.m)
         == "{" + Quote("range") + ":{" + Quote(ident) + ":" + MapText(conds) + "}}"
  {
    IntervalDocDBText(ident, from, fi, to, ti);
    IntervalOpenSearchText(ident, from, fi, to, ti);
  }

  lemma IntervalDocDBText(ident: string, from: Option<Value>, fi: bool, to: Option<Value>, ti: bool)
    ensures var c := Compile(Interval(ident, from, fi, to, ti), DocDB);
      c.Ok? && MapText(c.value.m) == "{" + Quote(ident) + ":" + MapText(Bounds(DocDB, from, fi, to, ti)) + "}"
  {
    assert Compile(Interval(ident, from, fi, to, ti), DocDB)
        == Ok(Single(Pair(ident, Object(Bounds(DocDB, from, fi, to, ti)))));
    PairText1(ident, Object(Bounds(DocDB, from, fi, to, ti)));
  }

  lemma IntervalOpenSearchText(ident: string, from: Option<Value>, fi: bool, to: Option<Value>, ti: bool)
    ensures var c := Compile(Interval(ident, from, fi, to, ti), OpenSearch);
      c.Ok? && MapText(c.value.m)
      == "{" + Quote("range") + ":{" + Quote(ident) + ":" + MapText(Bounds(OpenSearch, from, fi, to, ti)) + "}}"
  {
    assert Compile(Interval(ident, from, fi, to, ti), OpenSearch)
        == Ok(Single(Pair("range", Object(Pair(ident, Object(Bounds(OpenSearch, from, fi, to, ti)))))));
    NestedMapText("range", ident, Bounds(OpenSearch, from, fi, to, ti));
  }

  /** The text of `{k1:{k2: m}}` for a map `m`. */
  lemma NestedMapText(k1: string, k2: string, m: Map)
    ensures MapText(Pair(k1, Object(Pair(k2, Object(m))))) == "{" + Quote(k1) + ":{" + Quote(k2) + ":" + MapText(m) + "}}"
  {
    NestedText(k1, k2, Object(m));
  }

  /** How `Interval` wraps its conditions (expr.go:160-161, 178-180), read
      through the keys and lookups of the compiled map: DocDB keys the
      conditions by the field name alone, OpenSearch puts them under `range`
      and then the field name. Never an error. */
  lemma IntervalShape(ident: string, from: Option<Value>, fi: bool, to: Option<Value>, ti: bool)
    ensures var r := Compile(Interval(ident, from, fi, to, ti), DocDB);
      && r.Ok? && r.value.Single?
      && Keys(r.value.m) == [ident]
      && Lookup(r.value.m, ident) == Some(Object(Bounds(DocDB, from, fi, to, ti)))
    ensures var r := Compile(Interval(ident, from, fi, to, ti), OpenSearch);
      && r.Ok? && r.value.Single?
      && Keys(r.value.m) == ["range"]
      && Lookup(r.value.m, "range").Some? && Lookup(r.value.m, "range").value.Object?
      && Keys(Lookup(r.value.m, "range").value.m) == [ident]
      && Lookup(Lookup(r.value.m, "range").value.m, ident) == Some(Object(Bounds(OpenSearch, from, fi, to, ti)))
  {
  }
}

=== FILE: goquote.dfy ===
/** Go's `strconv.AppendQuote`, used for keys (map.go:23) and for the string,
    UUID and time cases of `appendValue` (map.go:38-43): the text between
    double quotes, with `"` and `\` escaped by a backslash, printable ASCII
    copied, the seven C escapes `\a \b \f \n \r \t \v`, and `\xHH` (lower-case
    hex) for every other control character and for DEL. Characters outside
    ASCII are copied as they are. */
module GoQuote {

  const LowerHex := "0123456789abcdef"

  function EscapeChar(c: char): (e: string)
    ensures |e| >= 1
    ensures e[0] == '\\' || (e == [c] && c != '"' && c != '\\' && c as int >= 0x20 && c as int != 0x7f)
  {
    var n := c as int;
    if c == '"' || c == '\\' then ['\\', c]
    else if n >= 0x20 && n != 0x7f then [c]
    else if n == 7 then "\\a"
    else if n == 8 then "\\b"
    else if n == 12 then "\\f"
    else if n == 10 then "\\n"
    else if n == 13 then "\\r"
    else if n == 9 then "\\t"
    else if n == 11 then "\\v"
    else "\\x" + [LowerHex[n / 16], LowerHex[n % 16]]
  }

  /** The escaped characters of `s`, without the surrounding quotes. */
  function QuoteBody(s: string): (q: string)
    ensures |q| >= |s|
  {
    if s == [] then [] else EscapeChar(s[0]) + QuoteBody(s[1..])
  }

  function Quote(s: string): (q: string)
    ensures |q| >= 2 && q[0] == '"' && q[|q| - 1] == '"'
  {
    "\"" + QuoteBody(s) + "\""
  }

  /** A character whose Go escape is also a JSON escape (section 7 of
      RFC 8259): everything except the control characters JSON has no
      short escape for, DEL, and the characters above U+FFFF, which Go
      writes as `\UXXXXXXXX` when it deems them non-printable. */
  predicate JsonSafe(c: char) {
    var n := c as int;
    (n >= 0x20 && n != 0x7f && n < 0x10000) || n == 8 || n == 9 || n == 10 || n == 12 || n == 13
  }

  predicate JsonSafeText(s: string) {
    forall i :: 0 <= i < |s| ==> JsonSafe(s[i])
  }
}

=== FILE: jsonparse.dfy ===
/** A strict recogniser for the subset of JSON (RFC 8259) that the encoder of
    map.go can produce: no insignificant whitespace, `true`/`false`, integers
    (an optional minus sign, then `0` or digits without a leading zero),
    strings with the escapes of section 7 of RFC 8259 other than `\u`,
    arrays and objects. It stands in for the standard decoder the Go test
    applies to the rendered bytes (map_test.go:35-36); it knows nothing about
    how the text was produced. */
module JsonParse {
  import opened Wrappers
  import opened Decimal

  datatype Json =
    | JBool(b: bool)
    | JInt(i: int)
    | JStr(s: string)
    | JArr(items: seq<Json>)
    | JObj(members: seq<Member>)

  /** One object member; order and duplicates are kept as read. */
  datatype Member = Member(key: string, value: Json)

  /** The character a two-character escape `\c` stands for. */
  function Unescape(c: char): (r: Option<char>)
    ensures r.Some? ==> c == '"' || c == '\\' || c == '/' || 'a' <= c <= 'z'
  {
    if c == '"' || c == '\\' || c == '/' then Some(c)
    else if c == 'b' then Some(8 as char)
    else if c == 'f' then Some(12 as char)
    else if c == 'n' then Some(10 as char)
    else if c == 'r' then Some(13 as char)
    else if c == 't' then Some(9 as char)
    else None
  }

  /** The characters of a string up to its closing quote, and what follows it;
      `s` starts just after the opening quote. */
  function ParseStringBody(s: string): (r: Option<(string, string)>)
    ensures r.Some? ==> |r.value.1| < |s|
    decreases |s|
  {
    if |s| == 0 then None
    else if s[0] == '"' then Some(([], s[1..]))
    else if s[0] == '\\' then
      if |s| < 2 then None
      else match Unescape(s[1])
        case None => None
        case Some(c) =>
          match ParseStringBody(s[2..])
          case None => None
          case Some((t, rest)) => Some(([c] + t, rest))
    else if (s[0] as int) < 0x20 then None
    else
      match ParseStringBody(s[1..])
      case None => None
      case Some((t, rest)) => Some(([s[0]] + t, rest))
  }

  /** The length of the run of digits `s` starts with. */
  function DigitRun(s: string): (n: nat)
    ensures n <= |s| && AllDigits(s[..n])
    ensures n < |s| ==> !IsDigit(s[n])
  {
    if |s| == 0 || !IsDigit(s[0]) then 0 else 1 + DigitRun(s[1..])
  }

  /** An integer: an optional minus sign, then `0` or a digit run that does
      not start with `0`. */
  function ParseInt(s: string): (r: Option<(int, string)>)
    ensures r.Some? ==> |r.value.1| < |s|
  {
    var neg := |s| > 0 && s[0] == '-';
    var t := if neg then s[1..] else s;
    var n := DigitRun(t);
    if n == 0 || (n > 1 && t[0] == '0') then None
    else
      var mag: int := DigitsValue(t[..n]);
      Some((if neg then -mag else mag, t[n..]))
  }

  /** One value: the first character decides its kind. */
  function ParseValue(s: string): (r: Option<(Json, string)>)
    ensures r.Some? ==> |r.value.1| < |s|
    decreases |s|, 1
  {
    if |s| == 0 then None
    else if s[0] == '{' then ParseObject(s)
    else if s[0] == '[' then ParseArray(s)
    else if s[0] == '"' then
      match ParseStringBody(s[1..])
      case None => None
      case Some((t, rest)) => Some((JStr(t), rest))
    else ParseLiteral(s)
  }

  /** An object; `s` starts with `{`. */
  function ParseObject(s: string): (r: Option<(Json, string)>)
    requires |s| > 0
    ensures r.Some? ==> |r.value.1| < |s|
    decreases |s|, 0
  {
    if |s| > 1 && s[1] == '}' then Some((JObj([]), s[2..]))
    else
      match ParseMembers(s[1..])
      case None => None
      case Some((ms, rest)) => Some((JObj(ms), rest))
  }

  /** An array; `s` starts with `[`. */
  function ParseArray(s: string): (r: Option<(Json, string)>)
    requires |s| > 0
    ensures r.Some? ==> |r.value.1| < |s|
    decreases |s|, 0
  {
    if |s| > 1 && s[1] == ']' then Some((JArr([]), s[2..]))
    else
      match ParseElements(s[1..])
      case None => None
      case Some((items, rest)) => Some((JArr(items), rest))
  }

  /** `true`, `false` or an integer. */
  function ParseLiteral(s: string): (r: Option<(Json, string)>)
    ensures r.Some? ==> |r.value.1| < |s|
  {
    if |s| >= 4 && s[0] == 't' && s[1] == 'r' && s[2] == 'u' && s[3] == 'e' then Some((JBool(true), s[4..]))
    else if |s| >= 5 && s[0] == 'f' && s[1] == 'a' && s[2] == 'l' && s[3] == 's' && s[4] == 'e' then
      Some((JBool(false), s[5..]))
    else
      match ParseInt(s)
      case None => None
      case Some((i, rest)) => Some((JInt(i), rest))
  }

  /** One or more array elements separated by commas, then `]`. */
  function ParseElements(s: string): (r: Option<(seq<Json>, string)>)
    ensures r.Some? ==> |r.value.1| < |s|
    decreases |s|, 2
  {
    match ParseValue(s)
    case None => None
    case Some((v, rest)) => ElementsAfter(v, rest)
  }

  /** What follows an element: `]` ends the array, `,` leads to more elements. */
  function ElementsAfter(v: Json, rest: string): (r: Option<(seq<Json>, string)>)
    ensures r.Some? ==> |r.value.1| < |rest|
    decreases |rest|, 3
  {
    if |rest| > 0 && rest[0] == ']' then Some(([v], rest[1..]))
    else if |rest| > 0 && rest[0] == ',' then
      match ParseElements(rest[1..])
      case None => None
      case Some((vs, rest')) => Some(([v] + vs, rest'))
    else None
  }

  /** One or more `"key":value` members separated by commas, then `}`. */
  function ParseMembers(s: string): (r: Option<(seq<Member>, string)>)
    ensures r.Some? ==> |r.value.1| < |s|
    decreases |s|, 2
  {
    if |s| == 0 || s[0] != '"' then None
    else
      match ParseStringBody(s[1..])
      case None => None
      case Some((key, afterKey)) =>
        if |afterKey| == 0 || afterKey[0] != ':' then None
        else
          match ParseValue(afterKey[1..])
          case None => None
          case Some((v, rest)) => MembersAfter(Member(key, v), rest)
  }

  /** What follows a member: `}` ends the object, `,` leads to more members. */
  function MembersAfter(m: Member, rest: string): (r: Option<(seq<Member>, string)>)
    ensures r.Some? ==> |r.value.1| < |rest|
    decreases |rest|, 3
  {
    if |rest| > 0 && rest[0] == '}' then Some(([m], rest[1..]))
    else if |rest| > 0 && rest[0] == ',' then
      match ParseMembers(rest[1..])
      case None => None
      case Some((ms, rest')) => Some(([m] + ms, rest'))
    else None
  }

  /** A complete JSON text: one value and nothing after it. */
  function Parse(s: string): (r: Option<Json>)
  {
    match ParseValue(s)
    case Some((j, rest)) => if rest == [] then Some(j) else None
    case None => None
  }
}

=== FILE: render.dfy ===
/** The hand-written JSON encoder of map.go. `ValueText`, `PairText` and
    `MapText` are what `appendValue`, `KVPair.appendJSON` and `Map.appendJSON`
    append to their buffer; the methods below mirror the Go loops that write
    into the buffer and are proved to append exactly that text. */
module Render {
  import opened Values
  import opened GoQuote
  import opened Decimal

  /** `parts` separated by commas, as the `if i > 0 { append ',' }` loops
      write them (map.go:45-50, 54-59, 77-82). */
  function Joined(parts: seq<string>): (t: string)
    ensures (forall i :: 0 <= i < |parts| ==> |parts[i]| > 0) ==> (|parts| == 0 <==> |t| == 0)
  {
    if |parts| == 0 then ""
    else if |parts| == 1 then parts[0]
    else parts[0] + "," + Joined(parts[1..])
  }

  function ValueText(v: Value): (t: string)
  {
    match v
    case Bool(b) => if b then "true" else "false"
    case Int(i) => IntText(i as int)
    case Str(s) => Quote(s)
    case Uuid(text) => Quote(text)
    case Time(text) => Quote(text)
    case Strings(ss) => "[" + Joined(QuoteAll(ss)) + "]"
    case List(items) => "[" + Joined(ValueTexts(items)) + "]"
    case Object(m) => MapText(m)
  }

  function QuoteAll(ss: seq<string>): (ts: seq<string>)
    ensures |ts| == |ss|
    ensures forall i :: 0 <= i < |ss| ==> ts[i] == Quote(ss[i])
  {
    if ss == [] then [] else [Quote(ss[0])] + QuoteAll(ss[1..])
  }

  function ValueTexts(vs: seq<Value>): (ts: seq<string>)
    ensures |ts| == |vs|
    ensures forall i :: 0 <= i < |vs| ==> ts[i] == ValueText(vs[i])
  {
    if vs == [] then [] else [ValueText(vs[0])] + ValueTexts(vs[1..])
  }

  function PairText(p: KVPair): string
  {
    Quote(p.key) + ":" + ValueText(p.value)
  }

  function PairTexts(ps: seq<KVPair>): (ts: seq<string>)
    ensures |ts| == |ps|
    ensures forall i :: 0 <= i < |ps| ==> ts[i] == PairText(ps[i])
  {
    if ps == [] then [] else [PairText(ps[0])] + PairTexts(ps[1..])
  }

  function MapText(m: Map): string
  {
    "{" + Joined(PairTexts(m.pairs)) + "}"
  }

  /** Appending one more part extends the joined text by a comma and the
      part, which is what one more iteration of the Go loops does. */
  lemma {:induction false} JoinedSnoc(parts: seq<string>, x: string)
    ensures Joined(parts + [x]) == if parts == [] then x else Joined(parts) + "," + x
    decreases |parts|
  {
    if |parts| == 1 {
      assert (parts + [x])[1..] == [x];
    } else if |parts| > 1 {
      assert (parts + [x])[1..] == parts[1..] + [x];
      JoinedSnoc(parts[1..], x);
      CommaShift(parts[0], Joined(parts[1..]), x);
    }
  }

  /** Regrouping of a concatenation, proved apart from its callers so that
      the solver sees only the strings involved. */
  lemma CommaShift(a: string, b: string, x: string)
    ensures a + "," + (b + "," + x) == a + "," + b + "," + x
  {
  }

  /** Joining two non-empty lists puts one comma between their joined texts. */
  lemma {:induction false} JoinedAppend(a: seq<string>, b: seq<string>)
    requires |a| > 0 && |b| > 0
    ensures Joined(a + b) == Joined(a) + "," + Joined(b)
    decreases |a|
  {
    if |a| == 1 {
      assert (a + b)[1..] == b;
    } else {
      assert (a + b)[1..] == a[1..] + b;
      JoinedAppend(a[1..], b);
    }
  }

  /** `appendValue(b, x)` (map.go:28-65): the buffer `b` is kept as an
      untouched prefix and the text of `x` is appended after it. */
  method AppendValue(b: string, x: Value) returns (r: string)
    ensures r == b + ValueText(x)
    decreases x, 1
  {
    match x {
      case Bool(v) =>
        r := b + (if v then "true" else "false");
      case Int(i) =>
        r := b + IntText(i as int);
      case Str(s) =>
        r := b + Quote(s);
      case Uuid(text) =>
        r := b + Quote(text);
      case Time(text) =>
        r := b + Quote(text);
      case Strings(ss) =>
        var body := AppendStrings(ss);
        r := b + "[" + body + "]";
        Bracketed(b, body);
      case List(items) =>
        var body := AppendItems(x, items);
        r := b + "[" + body + "]";
        Bracketed(b, body);
      case Object(m) =>
        r := AppendMap(b, m);
    }
  }

  lemma Bracketed(b: string, body: string)
    ensures b + "[" + body + "]" == b + ("[" + body + "]")
  {
  }

  /** The loop of the `[]string` case (map.go:44-51): each element quoted,
      with a comma before every element but the first. */
  method AppendStrings(ss: seq<string>) returns (body: string)
    ensures body == Joined(QuoteAll(ss))
  {
    body := "";
    for i := 0 to |ss|
      invariant body == Joined(QuoteAll(ss[..i]))
    {
      ghost var before := QuoteAll(ss[..i]);
      var q := Quote(ss[i]);
      if i > 0 {
        body := body + ",";
      }
      body := body + q;
      QuoteAllSnoc(ss, i);
      JoinedSnoc(before, q);
    }
    assert ss[..|ss|] == ss;
  }

  /** The loop of the `[]any` case (map.go:53-60): each element re-dispatched
      through `appendValue`, with commas between them. */
  method AppendItems(ghost parent: Value, items: seq<Value>) returns (body: string)
    requires parent.List? && parent.items == items
    ensures body == Joined(ValueTexts(items))
    decreases parent, 0
  {
    body := "";
    for i := 0 to |items|
      invariant body == Joined(ValueTexts(items[..i]))
    {
      ghost var before := ValueTexts(items[..i]);
      if i > 0 {
        body := body + ",";
      }
      body := AppendValue(body, items[i]);
      ValueTextsSnoc(items, i);
      JoinedSnoc(before, ValueText(items[i]));
    }
    assert items[..|items|] == items;
  }

  /** `KVPair.appendJSON` (map.go:22-26): the quoted key, a colon, the value. */
  method AppendPair(b: string, p: KVPair) returns (r: string)
    ensures r == b + PairText(p)
    decreases p
  {
    r := b + Quote(p.key) + ":";
    r := AppendValue(r, p.value);
  }

  /** `Map.appendJSON` (map.go:75-84): a brace, the pairs in insertion order
      separated by commas, a closing brace; the buffer is an untouched prefix. */
  method AppendMap(b: string, m: Map) returns (r: string)
    ensures r == b + MapText(m)
    decreases m
  {
    var body := "";
    for i := 0 to |m.pairs|
      invariant body == Joined(PairTexts(m.pairs[..i]))
    {
      ghost var before := PairTexts(m.pairs[..i]);
      if i > 0 {
        body := body + ",";
      }
      body := AppendPair(body, m.pairs[i]);
      PairTextsSnoc(m.pairs, i);
      JoinedSnoc(before, PairText(m.pairs[i]));
    }
    assert m.pairs[..|m.pairs|] == m.pairs;
    r := b + "{" + body + "}";
    Braced(b, body);
  }

  lemma Braced(b: string, body: string)
    ensures b + "{" + body + "}" == b + ("{" + body + "}")
  {
  }

  /** `Map.JSON` (map.go:92-97): the map rendered into a fresh buffer. */
  method Json(m: Map) returns (r: string)
    ensures r == MapText(m)
  {
    r := AppendMap([], m);
  }

  /** `Map.MarshalJSON` (map.go:87-89): the same text, and never an error. */
  method MarshalJson(m: Map) returns (r: string, failed: bool)
    ensures r == MapText(m) && !failed
  {
    r := Json(m);
    failed := false;
  }

  lemma QuoteAllSnoc(ss: seq<string>, i: nat)
    requires i < |ss|
    ensures QuoteAll(ss[..i + 1]) == QuoteAll(ss[..i]) + [Quote(ss[i])]
  {
    var a, c := QuoteAll(ss[..i + 1]), QuoteAll(ss[..i]) + [Quote(ss[i])];
    assert |a| == |c|;
    forall k | 0 <= k < |a|
      ensures a[k] == c[k]
    {
    }
  }

  lemma ValueTextsSnoc(vs: seq<Value>, i: nat)
    requires i < |vs|
    ensures ValueTexts(vs[..i + 1]) == ValueTexts(vs[..i]) + [ValueText(vs[i])]
  {
    var a, c := ValueTexts(vs[..i + 1]), ValueTexts(vs[..i]) + [ValueText(vs[i])];
    assert |a| == |c|;
    forall k | 0 <= k < |a|
      ensures a[k] == c[k]
    {
    }
  }

  lemma PairTextsSnoc(ps: seq<KVPair>, i: nat)
    requires i < |ps|
    ensures PairTexts(ps[..i + 1]) == PairTexts(ps[..i]) + [PairText(ps[i])]
  {
    var a, c := PairTexts(ps[..i + 1]), PairTexts(ps[..i]) + [PairText(ps[i])];
    assert |a| == |c|;
    forall k | 0 <= k < |a|
      ensures a[k] == c[k]
    {
    }
  }

  /** Empty slices render as `[]` and the empty map as `{}`
      (map.go:45, 52, 76). */
  lemma EmptyTexts()
    ensures ValueText(Strings([])) == "[]"
    ensures ValueText(List([])) == "[]"
    ensures MapText(Map([])) == "{}"
  {
  }

  /** The `[]string` elements seen as `[]any` elements. */
  function StrValues(ss: seq<string>): (vs: seq<Value>)
    ensures |vs| == |ss|
    ensures forall i :: 0 <= i < |ss| ==> vs[i] == Str(ss[i])
  {
    if ss == [] then [] else [Str(ss[0])] + StrValues(ss[1..])
  }

  /** Each element of a `[]string` is re-dispatched through `appendValue`
      (map.go:44-50), so the slice renders exactly as the `[]any` of the
      same strings does. */
  lemma StringsRedispatch(ss: seq<string>)
    ensures ValueText(Strings(ss)) == ValueText(List(StrValues(ss)))
  {
    assert QuoteAll(ss) == ValueTexts(StrValues(ss));
  }

  lemma PairTextsAppend(a: seq<KVPair>, b: seq<KVPair>)
    ensures PairTexts(a + b) == PairTexts(a) + PairTexts(b)
  {
  }

  /** Pairs are rendered in insertion order and none is dropped, duplicate
      keys included: the text of the pairs of `a` followed by those of `b` is
      the text of `a` without its closing brace, a comma, and the text of `b`
      without its opening brace (map.go:68-73, 77-82). */
  lemma MapTextConcat(a: Map, b: Map)
    requires |a.pairs| > 0 && |b.pairs| > 0
    ensures MapText(Concat(a, b)) == MapText(a)[..|MapText(a)| - 1] + "," + MapText(b)[1..]
  {
    var ja, jb := Joined(PairTexts(a.pairs)), Joined(PairTexts(b.pairs));
    PairTextsAppend(a.pairs, b.pairs);
    JoinedAppend(PairTexts(a.pairs), PairTexts(b.pairs));
    assert MapText(Concat(a, b)) == "{" + (ja + "," + jb) + "}";
    BraceSplit(ja, jb);
  }

  lemma BraceSplit(x: string, y: string)
    ensures "{" + (x + "," + y) + "}" == ("{" + x + "}")[..|"{" + x + "}"| - 1] + "," + ("{" + y + "}")[1..]
  {
    assert ("{" + x + "}")[..|"{" + x + "}"| - 1] == "{" + x;
    assert ("{" + y + "}")[1..] == y + "}";
  }
}

=== FILE: scenarios.dfy ===
/** The examples of expr_test.go, map_test.go and bulk_test.go, stated over
    the model. */
module Scenarios {
  import opened Wrappers
  import opened Values
  import opened GoQuote
  import opened Render
  import opened Expressions
  import opened Bulk
  import ExprProps
  import Split

  /** TestDocDBEq and TestOpensearchEq (expr_test.go:10-26). */
  lemma EqExample()
    ensures Compile(Eq("a", Int(1234)), DocDB) == Ok(Single(Map([KVPair("a", Int(1234))])))
    ensures Compile(Eq("a", Int(1234)), OpenSearch)
         == Ok(Single(Map([KVPair("term", Object(Map([KVPair("a", Int(1234))])))])))
  {
  }

  /** TestDocDBAnd (expr_test.go:28-35). */
  lemma DocDBAndExample()
    ensures Compile(And([Eq("a", Int(1234)), Eq("b", Int(5678))]), DocDB)
         == Ok(Single(Map([KVPair("a", Int(1234)), KVPair("b", Int(5678))])))
  {
    var es := [Eq("a", Int(1234)), Eq("b", Int(5678))];
    assert es[1..] == [es[1]] && es[1..][1..] == [];
    assert [KVPair("a", Int(1234))] + ([KVPair("b", Int(5678))] + []) == [KVPair("a", Int(1234)), KVPair("b", Int(5678))];
  }

  /** TestOpensearchAnd (expr_test.go:37-47). */
  lemma OpenSearchAndExample()
    ensures Compile(And([Eq("a", Int(1234)), Match("b", "5678")]), OpenSearch)
         == Ok(Many([Map([KVPair("term", Object(Map([KVPair("a", Int(1234))])))]),
                     Map([KVPair("match", Object(Map([KVPair("b", Str("5678"))])))])]))
  {
    var es := [Eq("a", Int(1234)), Match("b", "5678")];
    assert es[1..] == [es[1]] && es[1..][1..] == [];
    var m1 := Map([KVPair("term", Object(Map([KVPair("a", Int(1234))])))]);
    var m2 := Map([KVPair("match", Object(Map([KVPair("b", Str("5678"))])))]);
    assert AndOpenSearch(es[1..]) == Ok([m2] + []);
    assert [m1] + ([m2] + []) == [m1, m2];
  }

  /** TestOpensearchIntervalGtLt and TestOpensearchIntervalGteLte
      (expr_test.go:49-67). */
  lemma IntervalExamples()
    ensures Compile(Interval("a", Some(Int(10)), false, Some(Int(15)), false), OpenSearch)
         == Ok(Single(Map([KVPair("range", Object(Map([KVPair("a", Object(Map([KVPair("gt", Int(10)), KVPair("lt", Int(15))])))])))])))
    ensures Compile(Interval("a", Some(Int(10)), true, Some(Int(15)), true), OpenSearch)
         == Ok(Single(Map([KVPair("range", Object(Map([KVPair("a", Object(Map([KVPair("gte", Int(10)), KVPair("lte", Int(15))])))])))])))
  {
    assert [KVPair("gt", Int(10))] + [KVPair("lt", Int(15))] == [KVPair("gt", Int(10)), KVPair("lt", Int(15))];
    assert [KVPair("gte", Int(10))] + [KVPair("lte", Int(15))] == [KVPair("gte", Int(10)), KVPair("lte", Int(15))];
  }

  lemma TokensAdBa()
    ensures Split.Tokens("Ad Ba") == ["Ad", "Ba"]
  {
    assert "Ad Ba" == "Ad" + " " + "Ba";
    Split.TokensConcat("Ad", "Ba");
    Split.TokensOfWord("Ad");
    Split.TokensOfWord("Ba");
  }

  /** TestOpensearchWildcard (expr_test.go:69-80): "Ad Ba" gives two clauses. */
  lemma WildcardExample()
    ensures Compile(Wildcard("field", "Ad Ba"), OpenSearch)
         == Ok(Many([WildcardClause("field", "Ad"), WildcardClause("field", "Ba")]))
  {
    TokensAdBa();
    TwoClauses("field", "Ad Ba", "Ad", "Ba");
  }

  lemma TwoClauses(ident: string, text: string, t1: string, t2: string)
    requires Split.Tokens(text) == [t1, t2]
    ensures Compile(Wildcard(ident, text), OpenSearch) == Ok(Many([WildcardClause(ident, t1), WildcardClause(ident, t2)]))
  {
    ExprProps.WildcardCompiles(ident, text);
    var ms := Compile(Wildcard(ident, text), OpenSearch).value.ms;
    assert ms == [WildcardClause(ident, t1), WildcardClause(ident, t2)];
  }

  /** The nested map of TestMapJSON renders as `{"a":1,"b":"2"}`
      (map_test.go:23-26, 33). */
  lemma NestedMapExample()
    ensures MapText(Map([KVPair("a", Int(1)), KVPair("b", Str("2"))])) == "{\"a\":1,\"b\":\"2\"}"
  {
    ExprProps.PairText2("a", Int(1), "b", Str("2"));
    QuotedKeys();
    assert ValueText(Int(1)) == "1";
  }

  lemma QuotedKeys()
    ensures Quote("a") == "\"a\"" && Quote("b") == "\"b\"" && ValueText(Str("2")) == "\"2\""
  {
    ExprProps.QuotePlain("a");
    ExprProps.QuotePlain("b");
    ExprProps.QuotePlain("2");
  }

  /** The map of TestMapJSON (map_test.go:16-29) with its string contents
      as parameters. The float entry `b` (whose exponent formatting is not
      modelled), the nested map `g` (see `NestedMapExample`) and the
      `[]uuid.UUID` entry `k` (for which `appendValue` has no case) are
      left out; the time entry `e` carries its RFC 3339 text. */
  function TestMap(d: string, e: string, s: string, h: string): Map {
    Map([
      KVPair("a", Int(1234)),
      KVPair("c", Bool(true)),
      KVPair("d", Str(d)),
      KVPair("e", Time(e)),
      KVPair("f", List([Str(s), Int(1234)])),
      KVPair("h", Strings([h]))])
  }

  /** The expected text of map_test.go:33 for those six entries, in
      insertion order, instantiated with the test's own strings. */
  lemma TestMapExample()
    ensures MapText(TestMap("abcdefgh", "0002-01-01T01:00:00Z", "abcd", "hello world"))
         == "{" + "\"a\":1234" + "," + "\"c\":true" + "," + "\"d\":\"" + "abcdefgh" + "\"" + ","
          + "\"e\":\"" + "0002-01-01T01:00:00Z" + "\"" + "," + "\"f\":[\"" + "abcd" + "\",1234]" + ","
          + "\"h\":[\"" + "hello world" + "\"]" + "}"
  {
    TestStringsPlain();
    TestMapText("abcdefgh", "0002-01-01T01:00:00Z", "abcd", "hello world");
  }

  lemma TestStringsPlain()
    ensures ExprProps.Plain("abcdefgh") && ExprProps.Plain("0002-01-01T01:00:00Z")
    ensures ExprProps.Plain("abcd") && ExprProps.Plain("hello world")
  {
  }

  /** The same text for any strings that need no escaping: the integer,
      boolean, string, time, mixed-list and string-list fragments appear
      in insertion order, separated by commas and enclosed in braces. */
  lemma TestMapText(d: string, e: string, s: string, h: string)
    requires ExprProps.Plain(d) && ExprProps.Plain(e) && ExprProps.Plain(s) && ExprProps.Plain(h)
    ensures MapText(TestMap(d, e, s, h))
         == "{" + "\"a\":1234" + "," + "\"c\":true" + "," + "\"d\":\"" + d + "\"" + "," + "\"e\":\"" + e + "\"" + ","
          + "\"f\":[\"" + s + "\",1234]" + "," + "\"h\":[\"" + h + "\"]" + "}"
  {
    PairA();
    PairC();
    PairD(d);
    PairE(e);
    PairF(s);
    PairH(h);
    SixPairs(TestMap(d, e, s, h).pairs, "\"a\":1234", "\"c\":true", "\"d\":\"" + d + "\"", "\"e\":\"" + e + "\"",
      "\"f\":[\"" + s + "\",1234]", "\"h\":[\"" + h + "\"]");
    TestMapFlat(d, e, s, h);
  }

  lemma PairA()
    ensures PairText(KVPair("a", Int(1234))) == "\"a\":1234"
  {
    assert ValueText(Int(1234)) == "1234";
    PlainPair("a", Int(1234), "1234");
  }

  lemma PairC()
    ensures PairText(KVPair("c", Bool(true))) == "\"c\":true"
  {
    PlainPair("c", Bool(true), "true");
  }

  lemma PairD(d: string)
    requires ExprProps.Plain(d)
    ensures PairText(KVPair("d", Str(d))) == "\"d\":\"" + d + "\""
  {
    PlainValueTexts(d);
    PlainPair("d", Str(d), "\"" + d + "\"");
  }

  lemma PairE(e: string)
    requires ExprProps.Plain(e)
    ensures PairText(KVPair("e", Time(e))) == "\"e\":\"" + e + "\""
  {
    PlainValueTexts(e);
    PlainPair("e", Time(e), "\"" + e + "\"");
  }

  lemma PairF(s: string)
    requires ExprProps.Plain(s)
    ensures PairText(KVPair("f", List([Str(s), Int(1234)]))) == "\"f\":[\"" + s + "\",1234]"
  {
    MixedListText(s);
    PlainPair("f", List([Str(s), Int(1234)]), "[\"" + s + "\",1234]");
  }

  lemma PairH(h: string)
    requires ExprProps.Plain(h)
    ensures PairText(KVPair("h", Strings([h]))) == "\"h\":[\"" + h + "\"]"
  {
    PlainValueTexts(h);
    PlainPair("h", Strings([h]), "[\"" + h + "\"]");
  }

  /** A string, time or one-element string list whose text needs no
      escaping renders as the text between quotes. */
  lemma PlainValueTexts(s: string)
    requires ExprProps.Plain(s)
    ensures ValueText(Str(s)) == "\"" + s + "\""
    ensures ValueText(Time(s)) == "\"" + s + "\""
    ensures ValueText(Strings([s])) == "[\"" + s + "\"]"
  {
    ExprProps.QuotePlain(s);
    assert QuoteAll([s]) == [Quote(s)];
  }

  lemma MixedListText(s: string)
    requires ExprProps.Plain(s)
    ensures ValueText(List([Str(s), Int(1234)])) == "[\"" + s + "\",1234]"
  {
    PlainValueTexts(s);
    TwoItemList(Str(s), Int(1234));
    assert ValueText(Int(1234)) == "1234";
  }

  lemma TwoItemList(x: Value, y: Value)
    ensures ValueText(List([x, y])) == "[" + ValueText(x) + "," + ValueText(y) + "]"
  {
    var ts := ValueTexts([x, y]);
    assert ts == [ValueText(x), ValueText(y)];
    assert Joined(ts) == ts[0] + "," + Joined(ts[1..]);
    assert ts[1..] == [ValueText(y)];
  }

  /** A map of six pairs renders as their texts, comma separated, in
      braces. */
  lemma SixPairs(ps: seq<KVPair>, t0: string, t1: string, t2: string, t3: string, t4: string, t5: string)
    requires |ps| == 6
    requires PairText(ps[0]) == t0 && PairText(ps[1]) == t1 && PairText(ps[2]) == t2
    requires PairText(ps[3]) == t3 && PairText(ps[4]) == t4 && PairText(ps[5]) == t5
    ensures MapText(Map(ps)) == "{" + t0 + "," + t1 + "," + t2 + "," + t3 + "," + t4 + "," + t5 + "}"
  {
    var t := PairTexts(ps);
    JoinedSix(t);
    BracedSix(t0, t1, t2, t3, t4, t5);
  }

  /** Regrouping of a concatenation, proved apart from its callers so that
      the solver sees only the strings involved. */
  lemma BracedSix(t0: string, t1: string, t2: string, t3: string, t4: string, t5: string)
    ensures "{" + (t0 + "," + t1 + "," + t2 + "," + t3 + "," + t4 + "," + t5) + "}"
         == "{" + t0 + "," + t1 + "," + t2 + "," + t3 + "," + t4 + "," + t5 + "}"
  {
  }

  /** Regrouping the six fragments so that each string content stands on
      its own. */
  lemma TestMapFlat(d: string, e: string, s: string, h: string)
    ensures "{" + "\"a\":1234" + "," + "\"c\":true" + "," + ("\"d\":\"" + d + "\"") + "," + ("\"e\":\"" + e + "\"") + ","
          + ("\"f\":[\"" + s + "\",1234]") + "," + ("\"h\":[\"" + h + "\"]") + "}"
         == "{" + "\"a\":1234" + "," + "\"c\":true" + "," + "\"d\":\"" + d + "\"" + "," + "\"e\":\"" + e + "\"" + ","
          + "\"f\":[\"" + s + "\",1234]" + "," + "\"h\":[\"" + h + "\"]" + "}"
  {
    var x2 := "{" + "\"a\":1234" + "," + "\"c\":true" + ",";
    Regroup(x2, "\"d\":\"", d, "\"");
    var x3 := x2 + "\"d\":\"" + d + "\"" + ",";
    Regroup(x3, "\"e\":\"", e, "\"");
    var x4 := x3 + "\"e\":\"" + e + "\"" + ",";
    Regroup(x4, "\"f\":[\"", s, "\",1234]");
    var x5 := x4 + "\"f\":[\"" + s + "\",1234]" + ",";
    Regroup(x5, "\"h\":[\"", h, "\"]");
  }

  /** Regrouping of a concatenation, proved apart from its callers so that
      the solver sees only the strings involved. */
  lemma Regroup(x: string, a: string, b: string, c: string)
    ensures x + (a + b + c) == x + a + b + c
  {
  }

  /** A pair with a one-letter key renders as the quoted key, a colon and
      the value's text. */
  lemma PlainPair(k: string, v: Value, vt: string)
    requires |k| == 1 && 'a' <= k[0] <= 'z'
    requires ValueText(v) == vt
    ensures PairText(KVPair(k, v)) == "\"" + k + "\":" + vt
  {
    assert ExprProps.Plain(k);
    ExprProps.QuotePlain(k);
    QuotedKeyColon(k, vt);
  }

  /** Regrouping of a concatenation, proved apart from its callers so that
      the solver sees only the strings involved. */
  lemma QuotedKeyColon(k: string, vt: string)
    ensures "\"" + k + "\"" + ":" + vt == "\"" + k + "\":" + vt
  {
  }

  /** Joining six parts puts a comma between each neighbouring pair. */
  lemma JoinedSix(t: seq<string>)
    requires |t| == 6
    ensures Joined(t) == t[0] + "," + t[1] + "," + t[2] + "," + t[3] + "," + t[4] + "," + t[5]
  {
    assert t[..1] == [t[0]];
    JoinedPrefix(t, 1);
    JoinedPrefix(t, 2);
    JoinedPrefix(t, 3);
    JoinedPrefix(t, 4);
    JoinedPrefix(t, 5);
    assert t[..6] == t;
  }

  lemma JoinedPrefix(t: seq<string>, n: nat)
    requires 0 < n < |t|
    ensures Joined(t[..n + 1]) == Joined(t[..n]) + "," + t[n]
  {
    assert t[..n + 1] == t[..n] + [t[n]];
    JoinedSnoc(t[..n], t[n]);
  }

  lemma Frame3(a: string, b: string, c: string)
    ensures Frame([a, b, c]) == a + "\n" + b + "\n" + c + "\n"
  {
    FrameTwo([a], b, c);
    FrameOne([], a);
    assert [a] + [b, c] == [a, b, c];
    assert [] + [a] == [a];
  }

  lemma IndexAndDeleteRecords<T, E>(doc: T, d: string, str: string -> string, enc: T -> Result<string, E>)
    requires enc(doc) == Ok(d)
    ensures var ops := [BulkOperation(OpIndex, "ID-1", "test-index", Some(doc)),
                        BulkOperation(OpDelete, "ID-2", "test-index", None)];
      Records(ops, str, enc) == Ok([MetaRecord(ops[0], str), d, MetaRecord(ops[1], str)])
  {
    var ops := [BulkOperation(OpIndex, "ID-1", "test-index", Some(doc)),
                BulkOperation(OpDelete, "ID-2", "test-index", None)];
    var m0, m1 := MetaRecord(ops[0], str), MetaRecord(ops[1], str);
    assert ops[1..] == [ops[1]];
    DeleteHasNoDoc(ops[1], str, enc);
    assert OpRecords(ops[0], str, enc) == Ok([m0, d]);
    assert [m0, d] + [m1] == [m0, d, m1];
  }

  /** The "index and delete" case of Test_buildBulkBody (bulk_test.go:48-67):
      the index operation's metadata and document records, then the delete's
      metadata record alone. */
  lemma IndexAndDeleteExample<T, E>(doc: T, d: string, str: string -> string, enc: T -> Result<string, E>)
    requires enc(doc) == Ok(d)
    ensures var ops := [BulkOperation(OpIndex, "ID-1", "test-index", Some(doc)),
                        BulkOperation(OpDelete, "ID-2", "test-index", None)];
      && Records(ops, str, enc).Ok?
      && Frame(Records(ops, str, enc).value)
         == MetaRecord(ops[0], str) + "\n" + d + "\n" + MetaRecord(ops[1], str) + "\n"
  {
    var ops := [BulkOperation(OpIndex, "ID-1", "test-index", Some(doc)),
                BulkOperation(OpDelete, "ID-2", "test-index", None)];
    IndexAndDeleteRecords(doc, d, str, enc);
    Frame3(MetaRecord(ops[0], str), d, MetaRecord(ops[1], str));
  }
}

=== FILE: split.dfy ===
/** Go's `strings.Split(s, sep)` for a one-character separator, used by the
    wildcard compilation (expr.go:106), and the tokens that loop keeps:
    the non-empty parts, in order (expr.go:108-111). */
module Split {

  /** The parts of `s` between occurrences of `sep`; there is always one
      more part than there are separators, so `""` splits into `[""]`. */
  function Split(s: string, sep: char): (parts: seq<string>)
    ensures |parts| >= 1
    ensures forall i :: 0 <= i < |parts| ==> sep !in parts[i]
    decreases |s|
  {
    if |s| == 0 then [""]
    else
      var rest := Split(s[1..], sep);
      if s[0] == sep then [""] + rest
      else [[s[0]] + rest[0]] + rest[1..]
  }

  /** `strings.Join(parts, string(sep))`. */
  function Join(parts: seq<string>, sep: char): string
  {
    if |parts| == 0 then ""
    else if |parts| == 1 then parts[0]
    else parts[0] + [sep] + Join(parts[1..], sep)
  }

  /** The parts that are not empty, in their original order. */
  function NonEmpty(parts: seq<string>): (ts: seq<string>)
    ensures |ts| <= |parts|
    ensures forall i :: 0 <= i < |ts| ==> ts[i] != "" && ts[i] in parts
    ensures forall i :: 0 <= i < |parts| && parts[i] != "" ==> parts[i] in ts
  {
    if parts == [] then []
    else if parts[0] == "" then NonEmpty(parts[1..])
    else [parts[0]] + NonEmpty(parts[1..])
  }

  /** The space-separated tokens of `s`. */
  function Tokens(s: string): seq<string>
  {
    NonEmpty(Split(s, ' '))
  }

  lemma JoinCons(c: char, parts: seq<string>, sep: char)
    requires |parts| >= 1
    ensures Join([[c] + parts[0]] + parts[1..], sep) == [c] + Join(parts, sep)
  {
    var q := [[c] + parts[0]] + parts[1..];
    if |parts| > 1 {
      assert q[1..] == parts[1..];
    }
  }

  /** Joining the parts with the separator gives back the text. */
  lemma {:induction false} SplitJoin(s: string, sep: char)
    ensures Join(Split(s, sep), sep) == s
    decreases |s|
  {
    if |s| > 0 {
      var rest := Split(s[1..], sep);
      SplitJoin(s[1..], sep);
      if s[0] == sep {
        assert ([""] + rest)[1..] == rest;
      } else {
        JoinCons(s[0], rest, sep);
      }
      assert [s[0]] + s[1..] == s;
    }
  }

  /** Splitting around one separator splits each side independently. */
  lemma {:induction false} SplitConcat(a: string, b: string, sep: char)
    ensures Split(a + [sep] + b, sep) == Split(a, sep) + Split(b, sep)
    decreases |a|
  {
    var s := a + [sep] + b;
    if |a| == 0 {
      assert s == [sep] + b;
      assert s[1..] == b;
    } else {
      assert s[1..] == a[1..] + [sep] + b;
      SplitConcat(a[1..], b, sep);
    }
  }

  /** A separator-free word splits into itself. */
  lemma {:induction false} SplitWord(w: string, sep: char)
    requires sep !in w
    ensures Split(w, sep) == [w]
    decreases |w|
  {
    if |w| > 0 {
      SplitWord(w[1..], sep);
      assert [w[0]] + w[1..] == w;
    }
  }

  /** Conversely, splitting the join of separator-free parts gives them back. */
  lemma {:induction false} JoinSplit(parts: seq<string>, sep: char)
    requires |parts| >= 1
    requires forall i :: 0 <= i < |parts| ==> sep !in parts[i]
    ensures Split(Join(parts, sep), sep) == parts
    decreases |parts|
  {
    SplitWord(parts[0], sep);
    if |parts| > 1 {
      JoinSplit(parts[1..], sep);
      SplitConcat(parts[0], Join(parts[1..], sep), sep);
      assert [parts[0]] + parts[1..] == parts;
    }
  }

  lemma {:induction false} NonEmptyAppend(x: seq<string>, y: seq<string>)
    ensures NonEmpty(x + y) == NonEmpty(x) + NonEmpty(y)
    decreases |x|
  {
    if x == [] {
      assert x + y == y;
    } else {
      assert (x + y)[1..] == x[1..] + y;
      NonEmptyAppend(x[1..], y);
    }
  }

  /** Tokens on either side of a space are kept apart, and a run of spaces
      adds no token: `Tokens(a + " " + b)` is the tokens of `a` then of `b`. */
  lemma TokensConcat(a: string, b: string)
    ensures Tokens(a + " " + b) == Tokens(a) + Tokens(b)
  {
    SplitConcat(a, b, ' ');
    NonEmptyAppend(Split(a, ' '), Split(b, ' '));
  }

  /** A word without spaces is one token. */
  lemma TokensOfWord(w: string)
    requires w != [] && ' ' !in w
    ensures Tokens(w) == [w]
  {
    SplitWord(w, ' ');
  }

  /** A text has no tokens exactly when it consists of spaces only. */
  lemma {:induction false} TokensEmpty(s: string)
    ensures Tokens(s) == [] <==> forall i :: 0 <= i < |s| ==> s[i] == ' '
    decreases |s|
  {
    if |s| > 0 {
      TokensEmpty(s[1..]);
      var rest := Split(s[1..], ' ');
      if s[0] == ' ' {
        assert ([""] + rest)[1..] == rest;
        assert forall i :: 1 <= i < |s| ==> s[i] == s[1..][i - 1];
      } else {
        assert Tokens(s) != [];
      }
    }
  }
}

=== FILE: values.dfy ===
/** The value kinds the hand-written JSON encoder of map.go accepts, and the
    insertion-ordered `Map` of key/value pairs (map.go:12-16, 66-73).

    Go's `appendValue` switches over `interface{}` and panics on any other
    dynamic type; here the closed `Value` datatype makes that case
    unrepresentable. */
module Values {
  import opened Wrappers

  /** Go's `int` on a 64-bit platform. */
  newtype int64 = x: int | -0x8000_0000_0000_0000 <= x < 0x8000_0000_0000_0000

  datatype Value =
    | Bool(b: bool)
    | Int(i: int64)
    | Str(s: string)
      /** A `uuid.UUID`, carried as its canonical text (the result of `String()`). */
    | Uuid(text: string)
      /** A `time.Time`, carried as its RFC 3339 text (the result of `Format`). */
    | Time(text: string)
      /** A `[]string`. */
    | Strings(ss: seq<string>)
      /** A `[]any` whose elements are again values. */
    | List(items: seq<Value>)
      /** A nested `Map`. */
    | Object(m: Map)

  /** One key/value pair; keys need not be unique. */
  datatype KVPair = KVPair(key: string, value: Value)

  /** An association list kept in insertion order. */
  datatype Map = Map(pairs: seq<KVPair>)

  /** The keys of `m` in insertion order, duplicates included. */
  function Keys(m: Map): (ks: seq<string>)
    ensures |ks| == |m.pairs|
    ensures forall i :: 0 <= i < |ks| ==> ks[i] == m.pairs[i].key
    decreases |m.pairs|
  {
    if m.pairs == [] then [] else [m.pairs[0].key] + Keys(Map(m.pairs[1..]))
  }

  /** First-key-wins lookup (the reading used here); Go's `json.Unmarshal`
      keeps the last value of a duplicated key instead. */
  function Lookup(m: Map, k: string): (r: Option<Value>)
    ensures r.Some? <==> k in Keys(m)
    decreases |m.pairs|
  {
    if m.pairs == [] then None
    else if m.pairs[0].key == k then Some(m.pairs[0].value)
    else Lookup(Map(m.pairs[1..]), k)
  }

  /** Concatenation of two maps: the pairs of `a` followed by those of `b`. */
  function Concat(a: Map, b: Map): (r: Map)
    ensures |r.pairs| == |a.pairs| + |b.pairs|
    ensures forall i :: 0 <= i < |a.pairs| ==> r.pairs[i] == a.pairs[i]
    ensures forall i :: 0 <= i < |b.pairs| ==> r.pairs[|a.pairs| + i] == b.pairs[i]
  {
    Map(a.pairs + b.pairs)
  }

  /** Appending pairs is associative. */
  lemma ConcatAssoc(a: Map, b: Map, c: Map)
    ensures Concat(a, Concat(b, c)) == Concat(Concat(a, b), c)
  {
    assert a.pairs + (b.pairs + c.pairs) == (a.pairs + b.pairs) + c.pairs;
  }

  lemma KeysConcat(a: Map, b: Map)
    ensures Keys(Concat(a, b)) == Keys(a) + Keys(b)
  {
  }
}

=== FILE: wellformed.dfy ===
/** The text the encoder of map.go produces is well-formed JSON that decodes
    back to the value it was rendered from, with object members in insertion
    order and duplicate keys kept (map.go:22-84; map_test.go:33-37). Strings
    must avoid the control characters for which Go's quoting emits escapes
    that JSON does not have (`\a`, `\v`, `\xHH`). */
module Wellformed {
  import opened Wrappers
  import opened Values
  import opened GoQuote
  import opened Decimal
  import opened Render
  import opened JsonParse

  /** The JSON value a decoder reads from the text of `v`: UUIDs and times
      are strings, `[]string` and `[]any` are both arrays. */
  function Abs(v: Value): Json
  {
    match v
    case Bool(b) => JBool(b)
    case Int(i) => JInt(i as int)
    case Str(s) => JStr(s)
    case Uuid(text) => JStr(text)
    case Time(text) => JStr(text)
    case Strings(ss) => JArr(StrJsons(ss))
    case List(items) => JArr(AbsItems(items))
    case Object(m) => JObj(AbsPairs(m.pairs))
  }

  function StrJsons(ss: seq<string>): (js: seq<Json>)
    ensures |js| == |ss| && forall i :: 0 <= i < |ss| ==> js[i] == JStr(ss[i])
  {
    if ss == [] then [] else [JStr(ss[0])] + StrJsons(ss[1..])
  }

  function AbsItems(vs: seq<Value>): (js: seq<Json>)
    ensures |js| == |vs| && forall i :: 0 <= i < |vs| ==> js[i] == Abs(vs[i])
  {
    if vs == [] then [] else [Abs(vs[0])] + AbsItems(vs[1..])
  }

  function AbsPairs(ps: seq<KVPair>): (ms: seq<Member>)
    ensures |ms| == |ps|
    ensures forall i :: 0 <= i < |ps| ==> ms[i] == Member(ps[i].key, Abs(ps[i].value))
  {
    if ps == [] then [] else [Member(ps[0].key, Abs(ps[0].value))] + AbsPairs(ps[1..])
  }

  /** Every string inside `v`, keys included, is free of the characters Go
      escapes in a way JSON does not accept. */
  predicate SafeValue(v: Value)
  {
    match v
    case Bool(_) => true
    case Int(_) => true
    case Str(s) => JsonSafeText(s)
    case Uuid(text) => JsonSafeText(text)
    case Time(text) => JsonSafeText(text)
    case Strings(ss) => forall i :: 0 <= i < |ss| ==> JsonSafeText(ss[i])
    case List(items) => forall i :: 0 <= i < |items| ==> SafeValue(items[i])
    case Object(m) => SafeMap(m)
  }

  predicate SafeMap(m: Map)
  {
    forall i :: 0 <= i < |m.pairs| ==> JsonSafeText(m.pairs[i].key) && SafeValue(m.pairs[i].value)
  }

  /** What may follow a value: anything but a digit, which would extend a number. */
  predicate NumberEnd(rest: string)
  {
    |rest| == 0 || !IsDigit(rest[0])
  }

  lemma EscapeInverse(c: char)
    requires JsonSafe(c)
    ensures var e := EscapeChar(c);
      || (e == [c] && c != '"' && c != '\\' && c as int >= 0x20)
      || (|e| == 2 && e[0] == '\\' && Unescape(e[1]) == Some(c))
  {
  }

  /** The parser reads back exactly the quoted string, and stops after the
      closing quote. */
  lemma {:induction false} ParseQuoteBody(s: string, rest: string)
    requires JsonSafeText(s)
    ensures ParseStringBody(QuoteBody(s) + "\"" + rest) == Some((s, rest))
    decreases |s|
  {
    if s == [] {
      assert QuoteBody(s) + "\"" + rest == "\"" + rest;
    } else {
      var e := EscapeChar(s[0]);
      var tail := QuoteBody(s[1..]) + "\"" + rest;
      assert QuoteBody(s) + "\"" + rest == e + tail;
      ParseQuoteBody(s[1..], rest);
      EscapeInverse(s[0]);
      if e == [s[0]] {
        assert (e + tail)[1..] == tail;
      } else {
        assert (e + tail)[2..] == tail;
      }
      assert [s[0]] + s[1..] == s;
    }
  }

  lemma ParseQuote(s: string, rest: string)
    requires JsonSafeText(s)
    ensures ParseValue(Quote(s) + rest) == Some((JStr(s), rest))
  {
    ParseQuoteBody(s, rest);
    assert (Quote(s) + rest)[1..] == QuoteBody(s) + "\"" + rest;
  }

  /** A counterexample to well-formedness outside the safe alphabet: Go quotes
      U+0001 as `"\x01"`, which is not a JSON string. */
  lemma ControlCharQuoteRejected()
    ensures Quote([1 as char]) == "\"\\x01\""
    ensures Parse(Quote([1 as char])) == None
  {
    var q := Quote([1 as char]);
    assert QuoteBody([1 as char]) == "\\x01";
    assert q[1..] == "\\x01\"";
    assert Unescape('x') == None;
  }

  /** Go writes a non-printable character above U+FFFF such as U+F0000
      as `\U000f0000`, which is not a JSON escape; such characters are
      therefore not `JsonSafe`. */
  lemma SupplementaryQuoteRejected()
    ensures !JsonSafe(0xF0000 as char)
    ensures Parse("\"\\U000f0000\"") == None
  {
  }

  lemma {:induction false} DigitRunOfDigits(d: string, rest: string)
    requires AllDigits(d) && NumberEnd(rest)
    ensures DigitRun(d + rest) == |d|
    decreases |d|
  {
    if d != [] {
      assert (d + rest)[1..] == d[1..] + rest;
      DigitRunOfDigits(d[1..], rest);
    } else {
      assert d + rest == rest;
    }
  }

  /** A canonical digit run followed by a non-digit reads back as its value. */
  lemma ParseDigits(d: string, rest: string)
    requires Canonical(d) && NumberEnd(rest)
    ensures var t := d + rest;
      && DigitRun(t) == |d| && t[..|d|] == d && t[|d|..] == rest && t[0] == d[0]
  {
    DigitRunOfDigits(d, rest);
    assert (d + rest)[..|d|] == d;
    assert (d + rest)[|d|..] == rest;
  }

  lemma ParseNatOf(n: nat, rest: string)
    requires NumberEnd(rest)
    ensures ParseInt(NatText(n) + rest) == Some((n, rest))
  {
    var d := NatText(n);
    ParseDigits(d, rest);
    NatTextRoundTrip(n);
    assert IsDigit((d + rest)[0]);
  }

  lemma ParseNegOf(n: nat, rest: string)
    requires n > 0 && NumberEnd(rest)
    ensures ParseInt("-" + NatText(n) + rest) == Some((-(n as int), rest))
  {
    var d := NatText(n);
    ParseDigits(d, rest);
    NatTextRoundTrip(n);
    LeadSplit('-', d, rest);
  }

  /** A text that starts with a sign character `c`. */
  lemma LeadSplit(c: char, d: string, rest: string)
    ensures var s := [c] + d + rest; |s| > 0 && s[0] == c && s[1..] == d + rest
  {
    assert [c] + d + rest == [c] + (d + rest);
  }

  lemma ParseIntOf(i: int, rest: string)
    requires NumberEnd(rest)
    ensures ParseInt(IntText(i) + rest) == Some((i, rest))
  {
    if i < 0 {
      ParseNegOf(-i, rest);
    } else {
      ParseNatOf(i, rest);
    }
  }

  lemma ParseIntText(i: int, rest: string)
    requires NumberEnd(rest)
    ensures ParseValue(IntText(i) + rest) == Some((JInt(i), rest))
  {
    var s := IntText(i) + rest;
    ParseIntOf(i, rest);
    assert s[0] == '-' || IsDigit(s[0]);
  }

  lemma FirstChar(v: Value)
    ensures |ValueText(v)| > 0
    ensures ValueText(v)[0] != ']' && ValueText(v)[0] != '}'
  {
  }

  lemma JoinedFirst(parts: seq<string>)
    requires |parts| > 0 && |parts[0]| > 0
    ensures |Joined(parts)| > 0 && Joined(parts)[0] == parts[0][0]
  {
  }

  lemma ParseBoolText(b: bool, rest: string)
    ensures ParseValue(ValueText(Bool(b)) + rest) == Some((JBool(b), rest))
  {
    var s := ValueText(Bool(b)) + rest;
    if b {
      assert s == "true" + rest;
      assert s[0] == 't' && s[1] == 'r' && s[2] == 'u' && s[3] == 'e' && s[4..] == rest;
    } else {
      assert s == "false" + rest;
      assert s[0] == 'f' && s[1] == 'a' && s[2] == 'l' && s[3] == 's' && s[4] == 'e' && s[5..] == rest;
    }
  }

  lemma {:induction false} ParseValueText(v: Value, rest: string)
    requires SafeValue(v) && NumberEnd(rest)
    ensures ParseValue(ValueText(v) + rest) == Some((Abs(v), rest))
    decreases v
  {
    match v {
      case Bool(b) =>
        ParseBoolText(b, rest);
      case Int(i) =>
        ParseIntText(i as int, rest);
      case Str(t) =>
        ParseQuote(t, rest);
      case Uuid(t) =>
        ParseQuote(t, rest);
      case Time(t) =>
        ParseQuote(t, rest);
      case Strings(ss) =>
        ParseStringsValue(ss, rest);
      case List(items) =>
        ParseListValue(items, rest);
      case Object(m) =>
        ParseMapText(m, rest);
    }
  }

  lemma ParseStringsValue(ss: seq<string>, rest: string)
    requires forall i :: 0 <= i < |ss| ==> JsonSafeText(ss[i])
    ensures ParseValue(ValueText(Strings(ss)) + rest) == Some((JArr(StrJsons(ss)), rest))
  {
    if ss == [] {
      EmptyBrackets('[', ']', rest);
    } else {
      var body := Joined(QuoteAll(ss));
      JoinedFirst(QuoteAll(ss));
      ParseStringsText(ss, rest);
      ArrayText(body, rest, StrJsons(ss));
    }
  }

  lemma ParseListValue(items: seq<Value>, rest: string)
    requires forall i :: 0 <= i < |items| ==> SafeValue(items[i])
    ensures ParseValue(ValueText(List(items)) + rest) == Some((JArr(AbsItems(items)), rest))
    decreases items, 1
  {
    if items == [] {
      EmptyBrackets('[', ']', rest);
    } else {
      var body := Joined(ValueTexts(items));
      FirstChar(items[0]);
      JoinedFirst(ValueTexts(items));
      ParseItemsText(items, rest);
      ArrayText(body, rest, AbsItems(items));
    }
  }

  lemma ParseMapText(m: Map, rest: string)
    requires SafeMap(m)
    ensures ParseValue(MapText(m) + rest) == Some((JObj(AbsPairs(m.pairs)), rest))
    decreases m
  {
    var s := MapText(m) + rest;
    if m.pairs == [] {
      assert s == "{}" + rest;
    } else {
      var body := Joined(PairTexts(m.pairs));
      JoinedFirst(PairTexts(m.pairs));
      assert s == "{" + (body + "}" + rest);
      ParsePairsText(m.pairs, rest);
    }
  }

  lemma EmptyBrackets(open: char, close: char, rest: string)
    requires (open == '[' && close == ']') || (open == '{' && close == '}')
    ensures ParseValue([open, close] + rest)
         == Some((if open == '[' then JArr([]) else JObj([]), rest))
  {
    assert ([open, close] + rest)[2..] == rest;
  }

  /** An array text: `[`, the elements, `]`. */
  lemma ArrayText(body: string, rest: string, js: seq<Json>)
    requires |body| > 0 && body[0] != ']'
    requires ParseElements(body + "]" + rest) == Some((js, rest))
    ensures ParseValue("[" + body + "]" + rest) == Some((JArr(js), rest))
  {
    var t := body + "]" + rest;
    assert t[0] == body[0];
    ArrayOf(t, rest, js);
    assert "[" + body + "]" + rest == "[" + t;
  }

  lemma ArrayOf(t: string, rest: string, js: seq<Json>)
    requires |t| > 0 && t[0] != ']'
    requires ParseElements(t) == Some((js, rest))
    ensures ParseValue("[" + t) == Some((JArr(js), rest))
  {
    var s := "[" + t;
    assert s[0] == '[' && s[1] == t[0] && s[1..] == t;
    assert ParseArray(s) == Some((JArr(js), rest));
  }

  /** One step of `ParseElements`: a value, then what follows it. */
  lemma ParseElementsStep(s: string, v: Json, tail: string)
    requires ParseValue(s) == Some((v, tail))
    ensures ParseElements(s) == ElementsAfter(v, tail)
  {
  }

  /** The elements `e0,e1,...` followed by `]`, given that each element's
      text parses back and the remaining ones do too. */
  lemma ElementsHead(x: string, v: Json, more: string, rest: string, last: bool, vs: seq<Json>)
    requires last ==> ParseValue(x + ("]" + rest)) == Some((v, "]" + rest))
    requires !last ==> ParseValue(x + ("," + more)) == Some((v, "," + more))
    requires !last ==> ParseElements(more) == Some((vs, rest))
    ensures last ==> ParseElements(x + ("]" + rest)) == Some(([v], rest))
    ensures !last ==> ParseElements(x + ("," + more)) == Some(([v] + vs, rest))
  {
    if last {
      ParseElementsStep(x + ("]" + rest), v, "]" + rest);
      assert ("]" + rest)[1..] == rest;
    } else {
      ParseElementsStep(x + ("," + more), v, "," + more);
      assert ("," + more)[1..] == more;
    }
  }

  /** A joined list followed by a closing bracket: its first part, then
      either the bracket or a comma and the remaining parts. */
  lemma JoinedClose(parts: seq<string>, close: string, rest: string)
    requires |parts| > 0
    ensures |parts| == 1 ==> Joined(parts) + close + rest == parts[0] + (close + rest)
    ensures |parts| > 1 ==> Joined(parts) + close + rest == parts[0] + ("," + (Joined(parts[1..]) + close + rest))
  {
    if |parts| == 1 {
      assert Joined(parts) == parts[0];
      ConcatAssoc(parts[0], close, rest);
    } else {
      assert Joined(parts) == parts[0] + "," + Joined(parts[1..]);
      CommaAssoc(parts[0], Joined(parts[1..]), close, rest);
    }
  }

  /** Regrouping of a concatenation, proved apart from its callers so that
      the solver sees only the strings involved. */
  lemma ConcatAssoc(a: string, b: string, c: string)
    ensures a + b + c == a + (b + c)
  {
  }

  /** Regrouping of a concatenation, proved apart from its callers so that
      the solver sees only the strings involved. */
  lemma CommaAssoc(a: string, b: string, c: string, d: string)
    ensures a + "," + b + c + d == a + ("," + (b + c + d))
  {
  }

  lemma QuoteAllTail(ss: seq<string>)
    requires |ss| > 0
    ensures QuoteAll(ss)[1..] == QuoteAll(ss[1..])
  {
  }

  lemma ValueTextsTail(vs: seq<Value>)
    requires |vs| > 0
    ensures ValueTexts(vs)[1..] == ValueTexts(vs[1..])
  {
  }

  lemma PairTextsTail(ps: seq<KVPair>)
    requires |ps| > 0
    ensures PairTexts(ps)[1..] == PairTexts(ps[1..])
  {
  }

  lemma {:induction false} ParseStringsText(ss: seq<string>, rest: string)
    requires |ss| > 0 && forall i :: 0 <= i < |ss| ==> JsonSafeText(ss[i])
    ensures ParseElements(Joined(QuoteAll(ss)) + "]" + rest) == Some((StrJsons(ss), rest))
    decreases |ss|
  {
    var x := Quote(ss[0]);
    JoinedClose(QuoteAll(ss), "]", rest);
    if |ss| == 1 {
      ParseQuote(ss[0], "]" + rest);
      ElementsHead(x, JStr(ss[0]), "", rest, true, []);
      assert StrJsons(ss) == [JStr(ss[0])];
    } else {
      var more := Joined(QuoteAll(ss[1..])) + "]" + rest;
      QuoteAllTail(ss);
      ParseQuote(ss[0], "," + more);
      ParseStringsText(ss[1..], rest);
      ElementsHead(x, JStr(ss[0]), more, rest, false, StrJsons(ss[1..]));
      assert StrJsons(ss) == [JStr(ss[0])] + StrJsons(ss[1..]);
    }
  }

  lemma {:induction false} ParseItemsText(vs: seq<Value>, rest: string)
    requires |vs| > 0 && forall i :: 0 <= i < |vs| ==> SafeValue(vs[i])
    ensures ParseElements(Joined(ValueTexts(vs)) + "]" + rest) == Some((AbsItems(vs), rest))
    decreases vs, 0
  {
    var x := ValueText(vs[0]);
    JoinedClose(ValueTexts(vs), "]", rest);
    if |vs| == 1 {
      ParseValueText(vs[0], "]" + rest);
      ElementsHead(x, Abs(vs[0]), "", rest, true, []);
      assert AbsItems(vs) == [Abs(vs[0])];
    } else {
      var more := Joined(ValueTexts(vs[1..])) + "]" + rest;
      ValueTextsTail(vs);
      ParseValueText(vs[0], "," + more);
      ParseItemsText(vs[1..], rest);
      ElementsHead(x, Abs(vs[0]), more, rest, false, AbsItems(vs[1..]));
      assert AbsItems(vs) == [Abs(vs[0])] + AbsItems(vs[1..]);
    }
  }

  /** One step of `ParseMembers`: a key, a colon and a value. */
  lemma ParseMembersStep(s: string, key: string, after: string, v: Json, tail: string)
    requires |s| > 0 && s[0] == '"' && ParseStringBody(s[1..]) == Some((key, after))
    requires |after| > 0 && after[0] == ':' && ParseValue(after[1..]) == Some((v, tail))
    ensures ParseMembers(s) == MembersAfter(Member(key, v), tail)
  {
  }

  /** A quoted key, a colon and the text `x` of a value. */
  lemma MemberText(k: string, x: string, v: Json, tail: string)
    requires JsonSafeText(k) && ParseValue(x + tail) == Some((v, tail))
    ensures ParseMembers(Quote(k) + ":" + x + tail) == MembersAfter(Member(k, v), tail)
  {
    var after := ":" + x + tail;
    QuoteSplit(k, after);
    ParseQuoteBody(k, after);
    LeadSplit(':', x, tail);
    ParseMembersStep(Quote(k) + after, k, after, v, tail);
    PrefixAssoc(Quote(k), ":", x, tail);
  }

  /** Regrouping of a concatenation, proved apart from its callers so that
      the solver sees only the strings involved. */
  lemma PrefixAssoc(a: string, b: string, c: string, d: string)
    ensures a + b + c + d == a + (b + c + d)
  {
  }

  /** A quoted string followed by `after` starts with the opening quote. */
  lemma QuoteSplit(k: string, after: string)
    ensures |Quote(k) + after| > 0 && (Quote(k) + after)[0] == '"'
    ensures (Quote(k) + after)[1..] == QuoteBody(k) + "\"" + after
  {
    LeadSplit('"', QuoteBody(k) + "\"", after);
  }

  /** Reading the members list one pair at a time. */
  lemma ParseMembersHead(p: KVPair, tail: string)
    requires JsonSafeText(p.key) && SafeValue(p.value) && NumberEnd(tail)
    ensures ParseMembers(PairText(p) + tail) == MembersAfter(Member(p.key, Abs(p.value)), tail)
    decreases p, 1
  {
    ParseValueText(p.value, tail);
    MemberText(p.key, ValueText(p.value), Abs(p.value), tail);
  }

  lemma {:induction false} ParsePairsText(ps: seq<KVPair>, rest: string)
    requires |ps| > 0
    requires forall i :: 0 <= i < |ps| ==> JsonSafeText(ps[i].key) && SafeValue(ps[i].value)
    ensures ParseMembers(Joined(PairTexts(ps)) + "}" + rest) == Some((AbsPairs(ps), rest))
    decreases ps, 0
  {
    var p := ps[0];
    JoinedClose(PairTexts(ps), "}", rest);
    if |ps| == 1 {
      ParseMembersHead(p, "}" + rest);
      assert ("}" + rest)[1..] == rest;
      assert AbsPairs(ps) == [Member(p.key, Abs(p.value))];
    } else {
      var more := Joined(PairTexts(ps[1..])) + "}" + rest;
      PairTextsTail(ps);
      ParseMembersHead(p, "," + more);
      assert ("," + more)[1..] == more;
      ParsePairsText(ps[1..], rest);
      assert AbsPairs(ps) == [Member(p.key, Abs(p.value))] + AbsPairs(ps[1..]);
    }
  }

  /** The text of a map whose strings are safe decodes, as a whole document,
      to an object with the same members in the same order, duplicates kept
      (map_test.go:33-37). */
  lemma JsonRoundTrip(m: Map)
    requires SafeMap(m)
    ensures Parse(MapText(m)) == Some(JObj(AbsPairs(m.pairs)))
    ensures |Parse(MapText(m)).value.members| == |m.pairs|
    ensures forall i :: 0 <= i < |m.pairs| ==> Parse(MapText(m)).value.members[i].key == Keys(m)[i]
  {
    ParseMapText(m, "");
    assert MapText(m) + "" == MapText(m);
  }

  /** The same for the text of any single value. */
  lemma ValueRoundTrip(v: Value)
    requires SafeValue(v)
    ensures Parse(ValueText(v)) == Some(Abs(v))
  {
    ParseValueText(v, "");
    assert ValueText(v) + "" == ValueText(v);
  }
}

=== FILE: wrappers.dfy ===
/** Failure-compatible wrappers shared by the other modules: an optional value
    (a Go pointer that may be nil) and a result that carries either a value or
    an error (a Go `(value, error)` pair). */
module Wrappers {

  datatype Option<+T> = None | Some(value: T)

  datatype Result<+T, +E> = Ok(value: T) | Err(error: E) {

    predicate IsFailure() {
      Err?
    }

    function PropagateFailure<U>(): Result<U, E>
      requires Err?
    {
      Err(error)
    }

    function Extract(): T
      requires Ok?
    {
      value
    }
  }

  /** Two partial results over sequences combined: the first error wins, and
      two values are concatenated. */
  function Combine<T, E>(a: Result<seq<T>, E>, b: Result<seq<T>, E>): Result<seq<T>, E> {
    var x :- a;
    var y :- b;
    Ok(x + y)
  }
}
